=== FILE: README.md ===
# cookies_manager cost accounting and stock ledger, in Dafny

This project models the cost-accounting and stock-ledger core of
cookies_manager, a small Flask/SQLAlchemy application for a home cookie
bakery. The database is modelled as an immutable `Store`. It holds the
ingredient and packaging catalogues, the purchase ledger and the orders.
Each order carries ingredient and packaging lines, and every line keeps
the cost it had when the order was created. Money is whole cents (`int`).
Quantities are exact `real`s. A missing price is an `Option<int>`. An item
is identified by a tagged key, `Ingredient(id)` or `Packaging(id)`, so the
two catalogues never mix. A purchase row whose item type is null is kept as
an untyped id, which no per-kind query selects.

What is modelled, module by module:

- `Rounding`: Python's `round` (half to even), `round(x, 2)` and `int(x)`.
- `Models`: the `Purchase` and `Order` records, `Purchase.calculate_unit_cost`,
  and the derived order costs, profit and margin.
- `CostHelpers`: the latest-purchase unit cost, the default-price fallback,
  line costing, the cost preview and the cost snapshot.
- `Inventory`: stock as purchases minus usage, reconciliation with a
  physical count, and the duplicate-name guard.
- `Purchases`: dollars to cents, adding and editing purchases, and the
  latest-costs page.
- `Orders`: the order wizard's line filtering and dough weight, order
  creation with frozen costs, and the cost-preview endpoint.
- `Reports`: the dashboard totals and the per-order profit report. It also
  holds the double outer join used by two other reports.
- `Trends`: the period-bucketed trend series.
- `Rankings`: the top-customer and top-recipe lists, and the reports index page that shows them.
- `Recipes`: adding, editing and cloning recipes.
- `Uploads`: the image-extension whitelist.
- `Text`: ASCII helpers (lower-casing, last index of a character, decimal
  rendering).
- `CostExamples`: the worked figures of the cost tests.

Where the application's documentation and its code disagree, the model
follows the code:

- Costs are stored in whole cents. `calculate_unit_cost` rounds
  total/quantity to an integer number of cents (models.py:118-121). The
  millicent figures asserted at tests/test_costs.py:98-105 (4000, 7000,
  40000) do not hold for that code. The later assertions in the same file
  (800, 350, 80, 8, 1700, 120) do hold, and are proved in `CostExamples`.
- `get_latest_unit_cost` does not skip zero-cost stock adjustments
  (cost_helpers.py:16-21). Only the latest-costs page does
  (views/purchases.py:159-162). `Purchases.AdjustmentDivergence` states the
  consequence.
- SQL leaves ties on `purchase_date` unordered. `CostHelpers.IsLatestFor`
  admits any purchase of maximal date, and the cost lemmas hold for every
  admissible choice.

## Model

| member | source | states |
|---|---|---|
| Rounding.RoundHalfEven | cost_helpers.py:44 | Python's `round`: the result is within one half of the argument and is even on an exact tie |
| Rounding.RoundHalfEvenUnique | models.py:121 | at most one integer meets the round-half-to-even characterisation, so any integer meeting it is `RoundHalfEven` |
| Rounding.RoundHalfEvenOfInt | cost_helpers.py:44 | rounding a whole number of cents gives it back |
| Rounding.RoundHalfEvenOfDouble | cost_helpers.py:67 | rounding twice a value is within one cent of twice the rounded value |
| Rounding.RoundToHundredths | views/orders.py:335 | `round(x, 2)`: within 0.005 of the argument and a whole number of hundredths |
| Rounding.Truncate | views/purchases.py:45 | `int(x)`: drops the fractional part toward zero, for both signs |
| Text.Lower | views/recipes.py:13 | `str.lower` on ASCII: same length, and each character is lower-cased pointwise |
| Text.LastIndexOf | views/recipes.py:13 | the position `rsplit('.', 1)` splits at: none iff the character is absent, else an occurrence with none after it |
| Text.NatToString | views/recipes.py:202 | `f"{counter}"`: a non-empty string of decimal digits, a single digit exactly below 10, and a leading `0` only for 0 |
| Text.NatToStringRoundTrip | views/recipes.py:202 | reading the digits back in base 10 gives the counter, so the string is its decimal numeral |
| Text.NatToStringInjective | views/recipes.py:202 | distinct counters render to distinct strings |
| Models.Lookup | cost_helpers.py:38 | an item is found iff its id is in the catalogue of its own kind, and then it is that entry |
| Models.CalculateUnitCost | models.py:118-121 | when quantity and total are both non-zero, the unit cost becomes the half-even rounded quotient; otherwise the purchase is unchanged; no other field changes |
| Models.SumLineCostsAppend | models.py:150-158 | the cost sum over two line lists is the sum of their sums |
| Models.SumLineCostsBounds | models.py:150-158 | with no negative line cost, a cost sum is non-negative and at least the cost of each of its lines |
| Models.IngredientCostCents | models.py:150-153 | `ingredient_cost_cents` is 0 for an order without ingredient lines |
| Models.PackagingCostCents | models.py:155-158 | `packaging_cost_cents` is 0 for an order without packaging lines |
| Models.OrderLineCosts | models.py:150-158 | each of the two sums is its first line's cost plus the sum of the rest, and with no negative line cost it is non-negative and at least each line's cost |
| Models.TotalCostCents | models.py:160-163 | total cost is the sum of the stored costs of all ingredient and packaging lines |
| Models.ProfitCents | models.py:165-168 | profit plus ingredient cost plus packaging cost is the sale price |
| Models.ProfitMargin | models.py:170-175 | 0 when the sale price is 0, else margin × sale = profit × 100 |
| CostHelpers.LatestPurchase | cost_helpers.py:16-19 | the chosen purchase is an admissible answer to the latest-dated query: an item purchase no other purchase of the item postdates, or none when the item has none |
| CostHelpers.LatestChoicesShareDate | cost_helpers.py:18-19 | all admissible latest purchases agree on existence and on date |
| CostHelpers.OfItem | cost_helpers.py:16-17 | the item filter keeps exactly the purchases of the key |
| CostHelpers.LatestIgnoresOtherItems | cost_helpers.py:16-19 | purchases of other items, including the same id of the other kind, change neither the choice nor the set of admissible answers |
| CostHelpers.LatestUnitCost | cost_helpers.py:5-21 | none when the item has no purchase; when it has one, the stored unit cost of an admissible latest purchase, zero-cost adjustments included |
| CostHelpers.LatestUnitCostOfSoleLatest | cost_helpers.py:16-21 | when one purchase alone holds the item's latest date, the result is that purchase's stored unit cost |
| CostHelpers.AdjustmentIsLatestCost | cost_helpers.py:16-21 | a zero-cost purchase dated after every other purchase of the item makes its latest unit cost 0 |
| CostHelpers.UsableDefault | cost_helpers.py:35-42 | the default price is usable iff the item exists and its price is set and non-zero |
| CostHelpers.UnitCostFrom | cost_helpers.py:35-42 | the latest purchase's unit cost when it has one; otherwise the usable default |
| CostHelpers.ResolveUnitCost | cost_helpers.py:24-42 | the latest unit cost whenever there is one; the usable default price exactly when there is none (no purchase, or a null unit cost) |
| CostHelpers.ResolutionIndependentOfTieBreak | cost_helpers.py:16-21 | when same-day purchases agree on unit cost, every admissible tie-break resolves the same unit cost |
| CostHelpers.LineCost | cost_helpers.py:24-67 | no cost iff no unit cost resolves; otherwise the half-even rounding of unit cost × amount |
| CostHelpers.ZeroLatestCostCostsNothing | cost_helpers.py:36-44 | a latest unit cost of 0 does not fall back to the default and costs every amount 0 |
| CostHelpers.LineCostDoubling | cost_helpers.py:44 | doubling the amount doubles the line cost to within one cent |
| CostHelpers.SnapshotLines | cost_helpers.py:118-151 | one line per request, in order, same id and amount, costed with `LineCost` and 0 when that is none |
| CostHelpers.SnapshotOrderCosts | cost_helpers.py:105-153 | the snapshot writes the ingredient lines and the packaging lines of `SnapshotLines` |
| CostHelpers.PreviewSumIsSnapshotSum | cost_helpers.py:85-94 | the preview loop's running total over any requests equals the sum of the costs the snapshot freezes for them |
| CostHelpers.SumRequestedCosts | cost_helpers.py:85-94 | the preview loop's total equals the cost sum of the snapshot lines for the same requests |
| CostHelpers.CalculateOrderCostPreview | cost_helpers.py:70-102 | preview ingredient and packaging totals equal the sums of the lines the snapshot would write; total is their sum |
| Inventory.TotalPurchasedSnoc | views/inventory.py:253-258 | appending a purchase adds its quantity to its own item's purchased total only |
| Inventory.StockAfterPurchase | views/inventory.py:253-264 | appending a purchase raises the stock of its item by its quantity and leaves every other stock unchanged |
| Inventory.TotalPurchasedUpdate | views/inventory.py:253-258 | rewriting one purchase moves an item's purchased total by the new row's contribution less the old row's |
| Inventory.StockAfterEdit | views/inventory.py:253-264 | editing a purchase moves each item's stock by the new row's contribution less the old row's |
| Inventory.AdjustmentRecord | views/inventory.py:335-349 | the reconciliation row records the signed delta for the item on the given day at total 0 and unit cost 0 |
| Inventory.AdjustItem | views/inventory.py:316-351 | unknown item iff error; a row is written iff the count differs from current stock by more than 0.001; afterwards the item's stock equals the count, catalogues and orders are kept, and other items' stock is unchanged |
| Inventory.AdjustIsIdempotent | views/inventory.py:328-351 | submitting the same count again writes nothing |
| Inventory.ProcessAdjustment | views/inventory.py:304-404 | error iff some parsed field names an unknown item; otherwise catalogues and orders are kept, the ledger only grows, by exactly `count` zero-cost rows, nothing changes when the count is 0, items no parsed field names keep their stock, and every item a parsed field names ends within 0.001 of the last count given for it on the form |
| Inventory.AddStockItem | views/inventory.py:40-74 | rejected iff the name is missing, the unit is missing or the name is taken in that catalogue: a taken name is reported as such, a missing column as a missing field; otherwise exactly the new entry, built from the form, is added, with the column default threshold 0 when the form gives none, and unique names are preserved |
| Purchases.DollarsToCents | views/purchases.py:41-45 | 0 for a missing or zero amount; otherwise dollars × 100 truncated toward zero |
| Purchases.FormError | models.py:107-110 | no error iff the item type is null or one of the two kinds and the item id, quantity and unit are present; a type outside the `CHECK` is refused as such, and otherwise a missing non-null column is the error |
| Purchases.ItemOf | models.py:107-108 | a row with a known type names the key of that kind and the form's id; a row with a null type keeps the bare id, untyped |
| Purchases.FormFields | views/purchases.py:47-62 | the row carries the form's item, quantity, unit and cents, and the date or today when it does not parse |
| Purchases.AddPurchase | views/purchases.py:33-71 | error iff the form is incomplete, and then the error `FormError` names; otherwise exactly one row is appended, built from the form (untyped when the form has no type), with a fresh unit cost |
| Purchases.EditPurchaseAsWritten | views/purchases.py:85-122 | the edit as written: error iff the row is missing or the form incomplete; otherwise only that row changes, to the form's fields; with non-zero quantity and cents the unit cost is recomputed, otherwise the previous one is kept |
| Purchases.EditKeepsStaleUnitCost | views/purchases.py:113-117 | a concrete edit to total 0 keeps a unit cost of 40, which costing still reads, while the corrected edit clears it |
| Purchases.EditPurchase | views/purchases.py:85-122 | error iff the row is missing or a field is missing; otherwise only that row changes, to exactly the row an add would write, with a fresh unit cost |
| Purchases.UntypedRowLeavesItems | views/purchases.py:85-119 | a form without a type, added, changes no stock; edited in by either edit, it removes the old row's quantity from its item's stock, and an item whose only purchase it was has no latest cost left and falls back to its default price |
| Purchases.ItemName | views/purchases.py:14-23 | the name of the row's item in its own kind's catalogue, an untyped row being looked up among packaging, or "Unknown" when the id is not there |
| Purchases.Priced | views/purchases.py:159-162 | keeps exactly the purchases with a positive unit cost |
| Purchases.LatestCostEntry | views/purchases.py:151-193 | a date is shown iff the item has a positively priced purchase, and then it is a latest such purchase with its positive cost; otherwise the default price with no date |
| Purchases.AdjustmentDivergence | views/purchases.py:159-168 | after a reconciliation dated after every purchase of the item, costing resolves every line of it to 0, while the latest-costs page is unchanged |
| Orders.SelectWizardLines | views/orders.py:88-97 | error iff some positive entry names an unknown item; otherwise exactly the entries with a positive value, each as often as the form lists it, all naming known items |
| Orders.DoughWeight | views/orders.py:99-108 | 0 without a recipe; with one, the sum of the selected amounts; with positive amounts, positive iff a recipe is chosen and some ingredient is selected |
| Orders.SumAmountsAppend | views/orders.py:107-108 | the amount total of two runs of lines is the sum of their totals |
| Orders.PositiveSum | views/orders.py:107-108 | a sum of positive amounts is non-negative, and positive iff the list is non-empty |
| Orders.CreateOrderLines | views/orders.py:253-277 | error iff some field names an item but lacks an amount; otherwise exactly the fields with a non-zero id and a positive amount, each as often as the form lists it |
| Orders.CreateOrder | views/orders.py:206-289 | a new customer always fails; success iff the required fields are present, the cookie size meets its `CHECK` and both line lists parse with distinct ids; then exactly one order is appended, carrying the form's id, customer, recipe, size, weight and quantities (kept-for-family 0 when absent), the time, and the snapshot lines |
| Orders.PreviewMatchesCreatedOrder | cost_helpers.py:70-153 | for the same requests and ledger, the preview totals equal the created order's derived ingredient, packaging and total costs |
| Orders.PurchaseKeepsOrderCosts | models.py:150-168 | recording a purchase leaves every existing order's total cost and profit unchanged |
| Orders.FlourLineCosts | cost_helpers.py:44 | 250 g of flour costs 1000 at 4 cents per gram and 1750 once a newer purchase sets 7 cents |
| Orders.CreatesFlourOrder | views/orders.py:206-280 | a concrete form creates the expected order with its frozen line cost |
| Orders.RepricingExample | models.py:150-163 | after a newer, dearer purchase the created order still costs 1000 while a fresh line would cost 1750 |
| Orders.CostPreviewApi | views/orders.py:315-340 | error iff a list is missing; totals as the snapshot sums; per-cookie cost is the half-even rounded quotient when the quantity is positive, else 0; with a positive sale, margin = sale − total and the percentage is within 0.005 of margin/sale × 100, else both 0 |
| Reports.AllLinesCost | views/reports.py:22-29 | the sum over all lines of a kind equals the sum of the per-order costs of that kind |
| Reports.Margin | views/reports.py:36-38 | 0 when revenue is not positive, else margin × revenue = profit × 100 |
| Reports.MarginAgreesWithOrder | views/reports.py:113-115 | for a non-negative sale the report's margin is the order's `profit_margin` |
| Reports.IndexSummary | views/reports.py:12-41 | order count, revenue and cookies as sums over orders; cost as the two line-cost sums; profit + cost = revenue; margin as above |
| Reports.SelectOrders | views/reports.py:86-93 | keeps exactly the orders dated inside the window, or all of them without a start, each as often as given |
| Reports.RowOf | views/reports.py:99-135 | a profit row's costs, profit and margin are the order's derived properties |
| Reports.SumsStep | views/reports.py:99-112 | one more order and its row extend each order sum and each row sum by that order's and that row's figure |
| Reports.ProfitReportOf | views/reports.py:95-144 | one row per order; report totals are the sums of the rows, profit and margin follow, and they equal the dashboard totals |
| Reports.OuterSide | views/reports.py:519-520 | an outer-joined side is its lines, in order, or exactly one null row when there are none |
| Reports.JoinRows | views/reports.py:519-521 | the join has |left| × |right| rows, and a pair occurs iff each half occurs on its side |
| Reports.JoinRowsCount | views/reports.py:519-521 | each pair occurs as often as the product of the times each side holds its half |
| Reports.FanCount | views/reports.py:519-521 | one left row joined with the right side holds a pair as often as the right side holds its right half, when the left half is that row, and otherwise never |
| Reports.JoinMultiplies | views/reports.py:515-521 | summing a column of the join multiplies each side's sum by the other side's row count |
| Reports.SumOuterSide | views/reports.py:517-518 | a null row contributes nothing to a side's sum |
| Reports.JoinedOrderCosts | views/reports.py:515-521 | the exported costs are ingredient cost × max(1, packaging lines) and packaging cost × max(1, ingredient lines) |
| Reports.JoinedCostsAgreeIff | views/reports.py:281-288 | the joined sums equal the true costs iff no non-zero side is multiplied by more than one line of the other kind |
| Reports.JoinOvercounts | views/reports.py:515-521 | two ingredient lines (100, 200) and two packaging lines (10, 20) export 600 and 60 instead of 300 and 30 |
| Trends.InsertSorted | views/reports.py:381 | keeps the period list strictly increasing and adds exactly the new period |
| Trends.InWindow | views/reports.py:380 | keeps exactly the orders dated within the window |
| Trends.InWindowCounts | views/reports.py:380 | the window holds each order dated inside it as often as the data does, and no other |
| Trends.PeriodsOf | views/reports.py:377-381 | the periods with orders, strictly increasing, each one exactly some order's period |
| Trends.Bucket | views/reports.py:381 | keeps exactly the orders of one period |
| Trends.BucketCounts | views/reports.py:381 | a bucket holds each order of its period as often as the window does, and no other |
| Trends.CostByPeriod | views/reports.py:384-397 | a period has an entry iff some order of it has a line of the kind, and the entry is that period's line-cost sum |
| Trends.NoLinesNoCost | views/reports.py:414-415 | orders without lines of a kind cost nothing of that kind |
| Trends.CostLookupIsBucketCost | views/reports.py:421-422 | the lookup with default 0 is the period's cost sum in every case |
| Trends.TrendSeries | views/reports.py:377-425 | one point per period in ascending order; revenue, ingredient-plus-packaging cost and cookies are the bucket sums; profit = revenue − cost |
| Trends.BucketsPartition | views/reports.py:377-381 | summing per-bucket totals over distinct periods covering every order gives the total over the orders |
| Trends.SumPointsIsSumOverPeriods | views/reports.py:418-425 | the series' revenue (or cookie) points sum to the per-period bucket sums |
| Trends.TrendTotals | views/reports.py:377-404 | the series' revenue points sum to the window's revenue, and its cookie points to the window's cookies |
| Rankings.Group | views/reports.py:48 | keeps exactly the orders of one customer or recipe, each as often as given |
| Rankings.Keys | views/reports.py:48 | the distinct customers (or recipes) with orders, strictly increasing |
| Rankings.Tallies | views/reports.py:44-54 | one tally per key, with that group's order count and revenue |
| Rankings.InsertByScore | views/reports.py:48 | insertion keeps the scores non-increasing and adds exactly the new tally |
| Rankings.SortByScore | views/reports.py:48 | a permutation of the tallies with non-increasing scores |
| Rankings.PrefixOutranksRest | views/reports.py:48 | in a sorted list nothing outside a prefix outranks anything inside it |
| Rankings.TakeBest | views/reports.py:48 | the first k entries of a ranked permutation are ranked, drawn from the input (all of it when k takes everything), and outrank what they leave out |
| Rankings.TopN | views/reports.py:48 | min(n, size) tallies, non-increasing, drawn from the input (all of it when it fits), and nothing left out outranks anything kept |
| Rankings.TopCustomers | views/reports.py:44-48 | min(5, customers with orders) customer tallies, drawn from the tallies, in non-increasing revenue, and no tally left out has more revenue than one kept |
| Rankings.TopRecipes | views/reports.py:51-54 | min(5, recipes with orders) recipe tallies, drawn from the tallies, in non-increasing order count, and no tally left out has more orders than one kept |
| Rankings.ReportsIndex | views/reports.py:12-64 | the page fails iff the selected customer attribute does not exist; otherwise it carries the index totals (profit + cost = revenue) and both top-five lists, ranked and drawn from the tallies |
| Rankings.IndexAsWrittenFails | views/reports.py:44-48 | selecting `Customer.name`, the page fails whatever the orders |
| Rankings.IndexWithDisplayNameRenders | views/reports.py:12-64 | selecting `display_name`, the page renders `IndexSummary`, `TopCustomers` and `TopRecipes`, with a full customer list once five customers have orders |
| Recipes.SubmittedLines | views/recipes.py:83-96 | exactly the pairs that parse with a non-zero id and a positive quantity |
| Recipes.SubmittedLinesCount | views/recipes.py:83-96 | each line is submitted as often as an id/quantity pair yields it |
| Recipes.SubmittedLinesArePositive | views/recipes.py:88 | every kept line has a non-zero ingredient and a positive quantity |
| Recipes.Header | views/recipes.py:60-67 | the new recipe row carries the form's name, description, cookie size, dough weight per cookie, yield and notes, a size that meets the `CHECK`, and no lines |
| Recipes.AddRecipe | views/recipes.py:43-100 | rejected when the name is taken, or when the header row cannot be written (no name, no dough weight per cookie, or a cookie size outside the `CHECK`), with the book unchanged in both cases; otherwise the recipe and its filtered lines are added, except that duplicate lines leave the recipe committed without lines; unique names are preserved |
| Recipes.EditRecipe | views/recipes.py:107-160 | error iff the recipe is missing, a required field is missing, another recipe has the name, or lines repeat; otherwise the recipe becomes the form with exactly the filtered lines |
| Recipes.EditRecipeIdempotent | views/recipes.py:137-158 | applying the same edit twice gives the same book as once |
| Recipes.CopyNameInjective | views/recipes.py:197-202 | distinct counters give distinct clone names |
| Recipes.CloneName | views/recipes.py:196-202 | the first of "N (Copy)", "N (Copy 2)", … not already taken; it is not taken and every earlier candidate is |
| Recipes.FreshCandidate | views/recipes.py:196-202 | the next candidate name differs from every name already tried |
| Recipes.CloneRecipe | views/recipes.py:192-248 | error iff the original is missing; otherwise one recipe is added, equal to the original (lines included) except for its name, the first "N (Copy k)" no recipe holds, every earlier candidate being taken; unique names are preserved |
| Uploads.Extension | views/recipes.py:13 | none iff the name has no dot; otherwise the dot-free text after some dot |
| Uploads.AllowedFile | views/recipes.py:10-13 | an accepted name contains a dot |
| Uploads.AllowedFileOfExtension | views/inventory.py:12-15 | a name ending in "." + a dot-free extension is accepted iff the lower-cased extension is png, jpg, jpeg or gif |
| Uploads.NoDotRefused | views/recipes.py:13 | a name without a dot is refused |
| Uploads.AllowedFileIgnoresCase | views/recipes.py:13 | lower-casing the whole name does not change the verdict |
| Uploads.AcceptsUpperCase | views/recipes.py:13 | "cookie.PNG" is accepted |
| Uploads.RefusesInnerExtension | views/recipes.py:13 | only the last extension counts: "photo.jpg.exe" is refused |
| CostExamples.UnitCostOfFlour | tests/test_costs.py:56-63 | 4000 cents over 1000 g gives a unit cost of 4 cents |
| CostExamples.LatestInPantry | tests/test_costs.py:97-109 | the test ledger's latest purchases, and none for an unknown item |
| CostExamples.PricedLine | cost_helpers.py:24-44 | a line whose latest purchase stores unit cost u costs u × amount when that is whole, whatever the default price |
| CostExamples.LineCostsFromLatestPurchases | tests/test_costs.py:116-123 | 200 g flour costs 800, 50 g sugar 350, 2 boxes 80, and an unknown ingredient has no cost |
| CostExamples.RibbonFallsBackToDefault | tests/test_costs.py:150-158 | 0.5 m of ribbon at the default 15 cents costs 8 (7.5 rounds to even) |
| CostExamples.PreviewIngredientFigure | tests/test_costs.py:165-183 | 250 g flour and 100 g sugar preview at 1000 + 700 = 1700 cents of ingredients |
| CostExamples.PreviewPackagingFigure | tests/test_costs.py:169-184 | three boxes preview at 120 cents of packaging |
| CostExamples.StockAfterTwoOrders | views/inventory.py:253-264 | a 1000 g purchase less two orders' usage leaves 650 g |

## Left out

- HTTP plumbing (routes, request parsing, flash, redirects, templates, JSON) is left out. Form fields arrive already parsed, as `Option` values.
- Persistence is left out. The database is an immutable `Store`; ids the database would assign are parameters, with a precondition that they are fresh. A failed request returns an error and leaves the store unchanged, as the rollback does.
- File I/O is left out: saving, deleting and copying images. Only the pure extension check is modelled.
- Clocks are parameters: `today` and `now` are given dates.
- Calendar arithmetic and `strftime` period keys are left out. A period is an abstract function of the order date, and window bounds are given dates.
- Floating point is modelled as exact `real` arithmetic. Representation error in `float` sums, in `total_cost_dollars * 100` and in `round(x, 2)` is not modelled.
- Rounding.RoundToHundredths: states the rounded value's distance and granularity, not which hundredth wins an exact tie.
- Text.Lower: lower-cases ASCII letters only; Python's `str.lower` also folds other Unicode letters.
- CSV export and chart formatting are left out (`"{:.2f}"` strings, Chart.js data sets, labels).
- `get_low_stock_items` (cost_helpers.py:156-165) is a stub returning empty lists, so there is nothing to model.
- `scheduled_jobs.py` is left out. It is scheduler and logging glue.
- `seed.py`, `app.py`, `config.py`, `views/__init__.py` and `views/dashboard.py` are left out.
- Customer CRUD in `views/customers.py` is left out. Its only logic is a guard against deleting a customer with orders.
- Creating a new customer inside `create_order` is left out. The code passes `name` and `customer_type` (views/orders.py:224-227), which the `Customer` model does not define, so that path always raises and rolls back. `Orders.CreateOrder` models it as an error.
- Orders.CreateOrder: an order's line lists are the already-split request lists; the `ingredient_id_<idx>`/`ingredient_amount_<idx>` key pairing is not modelled.
- The profit report block at views/reports.py:147-170 is left out. It reads `item.Order` from plain order objects and would fail whenever there are orders. Only the loop at lines 99-144 is modelled.
- The reports index route fails on every request: its top-customers query selects `Customer.name` (views/reports.py:45), which the customer model does not define (models.py:52 names the column `display_name`), and the `AttributeError` is raised before the page is rendered (views/reports.py:56). `Reports.IndexSummary`, `Rankings.TopCustomers` and `Rankings.TopRecipes` model the intended page; see "## Findings".
- Rankings.TopN: among tallies with equal scores, the model keeps a deterministic choice; SQL's `LIMIT` after `ORDER BY` leaves that choice unspecified.
- The profit report's row order (newest first) and the latest-costs page's name order are presentation; the model keeps ledger order.
- `inventory_report`, `export_inventory_csv` and the stock-item edit and delete routes are left out. They are not part of the cost and stock core.
- The trend report at views/reports.py:281-288 and the trend CSV at views/reports.py:709-716 use the same double outer join as the profit CSV. The join is modelled once, per order, in `Reports.JoinedOrderCosts`; the per-period version is not repeated.
- Millicent precision is left out. It is asserted only by tests/test_costs.py:63-105 and not implemented by the code.

## Findings

| source | as written | input that shows it | evidently intended | confidence | as-written member | corrected member |
|---|---|---|---|---|---|---|
| views/purchases.py:113-117 with models.py:118-121 | editing a purchase to a zero total (or zero quantity) keeps its old unit cost, because `calculate_unit_cost` only writes when both are non-zero | a packaging purchase of 10 at 400 cents (unit cost 40) edited to total 0: the row says total 0 but unit cost 40, and costing still uses 40 | the unit cost is recomputed from scratch, so a zero total leaves no unit cost, as for a new purchase | not executed | Purchases.EditPurchaseAsWritten, Purchases.EditKeepsStaleUnitCost | Purchases.EditPurchase |
| views/reports.py:515-521 (also 281-288 and 709-716) | summing both line tables over a double outer join multiplies each side's sum by the other side's line count | an order with ingredient lines costing 100 and 200 and packaging lines costing 10 and 20 exports 600 and 60 | the order's own sums, 300 and 30, as the per-order loop at views/reports.py:99-112 computes them | not executed | Reports.JoinedOrderCosts, Reports.JoinOvercounts | Reports.RowOf |
| views/reports.py:44-48 with models.py:47-58 | the top-customers query selects `Customer.name`, an attribute the customer model does not have, so the index route raises before rendering | any request to the reports index, with or without orders | the query selects `Customer.display_name`, and the page shows the totals and both top-five lists | not executed | Rankings.IndexAsWrittenFails | Rankings.IndexWithDisplayNameRenders |

=== FILE: cost_helpers.dfy ===
/** `cost_helpers.py`: resolving an item's current unit cost from the
    purchase ledger (falling back to the item's default price), costing a line,
    previewing an order's cost and freezing the same costs onto order lines. */
module CostHelpers {
  import opened Wrappers
  import opened Models
  import Rounding

  // ---------------------------------------------------------------------
  // get_latest_unit_cost

  /** `r` is an admissible answer to `ORDER BY purchase_date DESC ... first()`
      over the purchases of `key`: none when there are none, otherwise one of
      them whose date no other purchase of `key` exceeds. Purchases sharing
      the latest date are not ordered by the store, so any of them qualifies. */
  predicate IsLatestFor(ps: seq<Purchase>, key: ItemKey, r: Option<Purchase>) {
    match r
    case None => forall q :: q in ps ==> q.item != Typed(key)
    case Some(p) => p in ps && p.item == Typed(key) && forall q :: q in ps && q.item == Typed(key) ==> q.date <= p.date
  }

  /** One admissible latest purchase; of several sharing the latest date it
      keeps the earliest recorded. */
  function LatestPurchase(ps: seq<Purchase>, key: ItemKey): (r: Option<Purchase>)
    ensures IsLatestFor(ps, key, r)
  {
    if |ps| == 0 then None
    else
      var r := LatestPurchase(ps[..|ps| - 1], key);
      var p := ps[|ps| - 1];
      assert ps == ps[..|ps| - 1] + [p];
      if p.item != Typed(key) then r
      else if r.None? || r.value.date < p.date then Some(p)
      else r
  }

  /** All admissible answers agree on whether there is one and on its date. */
  lemma LatestChoicesShareDate(ps: seq<Purchase>, key: ItemKey, a: Option<Purchase>, b: Option<Purchase>)
    requires IsLatestFor(ps, key, a) && IsLatestFor(ps, key, b)
    ensures a.Some? <==> b.Some?
    ensures a.Some? ==> a.value.date == b.value.date
  {
  }

  /** The purchases of one item, in ledger order. */
  function OfItem(ps: seq<Purchase>, key: ItemKey): (r: seq<Purchase>)
    ensures forall q :: q in r <==> q in ps && q.item == Typed(key)
    ensures |r| <= |ps|
  {
    if |ps| == 0 then []
    else
      var r := OfItem(ps[..|ps| - 1], key);
      assert ps == ps[..|ps| - 1] + [ps[|ps| - 1]];
      if ps[|ps| - 1].item == Typed(key) then r + [ps[|ps| - 1]] else r
  }

  /** Purchases of other items, including the other kind's item with the
      same numeric id, never affect which purchase is latest. */
  lemma {:induction false} LatestIgnoresOtherItems(ps: seq<Purchase>, key: ItemKey)
    ensures LatestPurchase(ps, key) == LatestPurchase(OfItem(ps, key), key)
    ensures forall r :: IsLatestFor(ps, key, r) <==> IsLatestFor(OfItem(ps, key), key, r)
  {
    if |ps| > 0 {
      LatestIgnoresOtherItems(ps[..|ps| - 1], key);
      var front := OfItem(ps[..|ps| - 1], key);
      var p := ps[|ps| - 1];
      if p.item == Typed(key) {
        assert OfItem(ps, key) == front + [p];
        assert (front + [p])[..|front + [p]| - 1] == front;
      }
    }
  }

  /** `get_latest_unit_cost`: the stored unit cost of the latest purchase, or
      none when the item was never purchased. Zero-cost adjustments are not
      filtered out, and a latest purchase with a null unit cost yields none. */
  function LatestUnitCost(ps: seq<Purchase>, key: ItemKey): (r: Option<int>)
    ensures (forall q :: q in ps ==> q.item != Typed(key)) ==> r.None?
    ensures r.Some? ==> exists q :: q in ps && IsLatestFor(ps, key, Some(q)) && q.unitCostCents == r
    ensures (exists q :: q in ps && q.item == Typed(key)) ==> exists p :: IsLatestFor(ps, key, Some(p)) && r == p.unitCostCents
  {
    match LatestPurchase(ps, key)
    case None => None
    case Some(p) => p.unitCostCents
  }

  /** When one purchase alone holds the item's latest date, the latest unit
      cost is that purchase's stored cost. */
  lemma LatestUnitCostOfSoleLatest(ps: seq<Purchase>, key: ItemKey, p: Purchase)
    requires IsLatestFor(ps, key, Some(p))
    requires forall q :: q in ps && q.item == Typed(key) && q.date == p.date ==> q == p
    ensures LatestUnitCost(ps, key) == p.unitCostCents
  {
  }

  /** A latest-dated purchase of unit cost 0 (a stock adjustment) is what
      the costing path reports. */
  lemma AdjustmentIsLatestCost(ps: seq<Purchase>, key: ItemKey, adj: Purchase)
    requires adj in ps && adj.item == Typed(key) && adj.unitCostCents == Some(0)
    requires forall q :: q in ps && q.item == Typed(key) && q != adj ==> q.date < adj.date
    ensures LatestUnitCost(ps, key) == Some(0)
  {
  }

  // ---------------------------------------------------------------------
  // calculate_ingredient_cost / calculate_packaging_cost

  /** The item's default price, when it is set and non-zero (Python truthiness). */
  function UsableDefault(item: Option<StockItem>): (r: Option<int>)
    ensures r.Some? <==> item.Some? && item.value.defaultPricePerUnitCents.Some? && item.value.defaultPricePerUnitCents.value != 0
    ensures r.Some? ==> r == item.value.defaultPricePerUnitCents
  {
    if item.Some? && item.value.defaultPricePerUnitCents.Some? && item.value.defaultPricePerUnitCents.value != 0
    then item.value.defaultPricePerUnitCents
    else None
  }

  /** The unit cost used for costing, given the chosen latest purchase: the
      purchase's stored cost when there is one (even 0), else the usable
      default price, else none. */
  function UnitCostFrom(latest: Option<Purchase>, item: Option<StockItem>): (r: Option<int>)
    ensures latest.Some? && latest.value.unitCostCents.Some? ==> r == latest.value.unitCostCents
    ensures latest.None? || latest.value.unitCostCents.None? ==> r == UsableDefault(item)
  {
    match latest
    case Some(Purchase(_, _, _, _, _, Some(u))) => Some(u)
    case _ => UsableDefault(item)
  }

  /** The resolved unit cost of an item in the current store. */
  function ResolveUnitCost(store: Store, key: ItemKey): (r: Option<int>)
    ensures (forall q :: q in store.purchases ==> q.item != Typed(key)) ==> r == UsableDefault(Lookup(store, key))
    ensures r.Some? ==>
      r == UsableDefault(Lookup(store, key)) ||
      exists q :: q in store.purchases && IsLatestFor(store.purchases, key, Some(q)) && q.unitCostCents == r
    ensures LatestUnitCost(store.purchases, key).Some? ==> r == LatestUnitCost(store.purchases, key)
    ensures LatestUnitCost(store.purchases, key).None? ==> r == UsableDefault(Lookup(store, key))
  {
    UnitCostFrom(LatestPurchase(store.purchases, key), Lookup(store, key))
  }

  /** Whatever latest purchase the store returns among those sharing the
      latest date, the resolved cost is the same as long as they agree on
      their unit cost; in particular when no two purchases of the item share
      a date. */
  lemma ResolutionIndependentOfTieBreak(ps: seq<Purchase>, key: ItemKey, item: Option<StockItem>, a: Option<Purchase>, b: Option<Purchase>)
    requires IsLatestFor(ps, key, a) && IsLatestFor(ps, key, b)
    requires forall q, q' :: q in ps && q' in ps && q.item == Typed(key) && q'.item == Typed(key) && q.date == q'.date ==> q.unitCostCents == q'.unitCostCents
    ensures UnitCostFrom(a, item) == UnitCostFrom(b, item)
  {
    LatestChoicesShareDate(ps, key, a, b);
  }

  /** Line cost: the resolved unit cost times the amount, rounded half to
      even to whole cents; none when no price is known. */
  function LineCost(store: Store, key: ItemKey, amount: real): (r: Option<int>)
    ensures r.None? <==> ResolveUnitCost(store, key).None?
    ensures r.Some? ==> Rounding.IsRoundHalfEven(ResolveUnitCost(store, key).value as real * amount, r.value)
  {
    var u := ResolveUnitCost(store, key);
    if u.None? then None else Some(RoundedCost(u.value, amount))
  }

  /** An amount at a unit cost in cents, rounded half to even to whole cents. */
  function RoundedCost(unitCents: int, amount: real): int {
    Rounding.RoundHalfEven(unitCents as real * amount)
  }

  /** Once the unit cost is resolved, the line is the amount priced at it. */
  lemma LineCostAtResolved(store: Store, key: ItemKey, amount: real, u: int)
    requires ResolveUnitCost(store, key) == Some(u)
    ensures LineCost(store, key, amount) == Some(RoundedCost(u, amount))
  {
  }

  /** A latest unit cost of 0 does not fall back to the default price: the
      line costs nothing, whatever the amount. */
  lemma {:induction false} ZeroLatestCostCostsNothing(store: Store, key: ItemKey, amount: real)
    requires LatestUnitCost(store.purchases, key) == Some(0)
    ensures LineCost(store, key, amount) == Some(0)
  {
    LineCostAtResolved(store, key, amount, 0);
    assert 0 as real * amount == 0 as real;
    Rounding.RoundHalfEvenOfInt(0);
  }

  /** Line cost is linear in the amount up to rounding: doubling the amount
      moves the cost at most one cent from double. */
  lemma LineCostDoubling(store: Store, key: ItemKey, amount: real)
    requires ResolveUnitCost(store, key).Some?
    ensures -1 <= LineCost(store, key, 2.0 * amount).value - 2 * LineCost(store, key, amount).value <= 1
  {
    var u := ResolveUnitCost(store, key).value as real;
    assert u * (2.0 * amount) == 2.0 * (u * amount);
    Rounding.RoundHalfEvenOfDouble(u * amount);
  }

  // ---------------------------------------------------------------------
  // calculate_order_cost_preview / snapshot_order_costs

  /** One requested line: `{'id': ..., 'amount': ...}` or `{'id': ..., 'quantity': ...}`. */
  datatype LineRequest = LineRequest(id: int, amount: real)

  /** The order lines `snapshot_order_costs` writes for requests of one kind:
      one per request, amount copied, cost frozen (0 when no price is known). */
  function SnapshotLines(store: Store, kind: ItemKind, reqs: seq<LineRequest>): (r: seq<OrderLine>)
    ensures |r| == |reqs|
    ensures forall i :: 0 <= i < |reqs| ==>
      && r[i].itemId == reqs[i].id
      && r[i].amountUsed == reqs[i].amount
      && r[i].costAtTimeOfUseCents == LineCost(store, KeyOf(kind, reqs[i].id), reqs[i].amount).GetOr(0)
  {
    if |reqs| == 0 then []
    else
      var last := reqs[|reqs| - 1];
      SnapshotLines(store, kind, reqs[..|reqs| - 1])
        + [OrderLine(last.id, last.amount, LineCost(store, KeyOf(kind, last.id), last.amount).GetOr(0))]
  }

  datatype Snapshot = Snapshot(ingredients: seq<OrderLine>, packaging: seq<OrderLine>)

  function SnapshotOrderCosts(store: Store, ingredients: seq<LineRequest>, packaging: seq<LineRequest>): (r: Snapshot)
    ensures r.ingredients == SnapshotLines(store, IngredientKind, ingredients)
    ensures r.packaging == SnapshotLines(store, PackagingKind, packaging)
  {
    Snapshot(SnapshotLines(store, IngredientKind, ingredients), SnapshotLines(store, PackagingKind, packaging))
  }

  datatype CostPreview = CostPreview(ingredientCostCents: int, packagingCostCents: int, totalCostCents: int)

  /** The running total of `calculate_order_cost_preview` over the first
      requests: each priced line adds its cost, an unpriced one nothing. */
  function PreviewSum(store: Store, kind: ItemKind, reqs: seq<LineRequest>): int {
    if |reqs| == 0 then 0
    else
      var last := reqs[|reqs| - 1];
      PreviewSum(store, kind, reqs[..|reqs| - 1]) + LineCost(store, KeyOf(kind, last.id), last.amount).GetOr(0)
  }

  /** The preview's running total is the sum of the costs the snapshot
      freezes for the same requests. */
  lemma {:induction false} PreviewSumIsSnapshotSum(store: Store, kind: ItemKind, reqs: seq<LineRequest>)
    ensures PreviewSum(store, kind, reqs) == SumLineCosts(SnapshotLines(store, kind, reqs))
  {
    if |reqs| > 0 {
      var front := reqs[..|reqs| - 1];
      var last := reqs[|reqs| - 1];
      PreviewSumIsSnapshotSum(store, kind, front);
      var line := OrderLine(last.id, last.amount, LineCost(store, KeyOf(kind, last.id), last.amount).GetOr(0));
      assert SnapshotLines(store, kind, reqs) == SnapshotLines(store, kind, front) + [line];
      SumLineCostsAppend(SnapshotLines(store, kind, front), [line]);
    }
  }

  /** The loop of `calculate_order_cost_preview` over the requests of one
      kind: skips lines without a price (`if cost:`) and adds the rest. */
  method SumRequestedCosts(store: Store, kind: ItemKind, reqs: seq<LineRequest>) returns (total: int)
    ensures total == SumLineCosts(SnapshotLines(store, kind, reqs))
  {
    total := 0;
    var i := 0;
    while i < |reqs|
      invariant 0 <= i <= |reqs|
      invariant total == PreviewSum(store, kind, reqs[..i])
    {
      var cost := LineCost(store, KeyOf(kind, reqs[i].id), reqs[i].amount);
      assert reqs[..i + 1][..i] == reqs[..i];
      if cost.Some? && cost.value != 0 {
        total := total + cost.value;
      }
      i := i + 1;
    }
    assert reqs[..|reqs|] == reqs;
    PreviewSumIsSnapshotSum(store, kind, reqs);
  }

  /** `calculate_order_cost_preview`: the figures shown before an order is
      saved are exactly the totals of the lines the snapshot would write from
      the same requests and ledger. */
  method CalculateOrderCostPreview(store: Store, ingredients: seq<LineRequest>, packaging: seq<LineRequest>)
    returns (preview: CostPreview)
    ensures preview.ingredientCostCents == SumLineCosts(SnapshotLines(store, IngredientKind, ingredients))
    ensures preview.packagingCostCents == SumLineCosts(SnapshotLines(store, PackagingKind, packaging))
    ensures preview.totalCostCents == preview.ingredientCostCents + preview.packagingCostCents
  {
    var ingredientCost := SumRequestedCosts(store, IngredientKind, ingredients);
    var packagingCost := SumRequestedCosts(store, PackagingKind, packaging);
    preview := CostPreview(ingredientCost, packagingCost, ingredientCost + packagingCost);
  }
}

=== FILE: examples.dfy ===
/** Worked cases of the costing rules, on a small ledger of flour, sugar,
    boxes and ribbon (the figures of `tests/test_costs.py`). */
module CostExamples {
  import opened Wrappers
  import opened Models
  import Rounding
  import CostHelpers
  import Inventory

  const FlourBuy := Purchase(1, Typed(Ingredient(1)), 1000.0, "g", 4000, Some(4))
  const SugarBuy := Purchase(1, Typed(Ingredient(2)), 500.0, "g", 3500, Some(7))
  const BoxBuy := Purchase(1, Typed(Packaging(1)), 10.0, "pcs", 400, Some(40))

  const Pantry := Store(
    map[1 := StockItem("Flour", "g", None, None), 2 := StockItem("Sugar", "g", None, None)],
    map[1 := StockItem("Box", "pcs", None, None), 2 := StockItem("Ribbon", "m", Some(15), None)],
    [FlourBuy, SugarBuy, BoxBuy],
    [])

  /** 4000 cents for 1000 g is 4 cents a gram. */
  lemma UnitCostOfFlour()
    ensures CalculateUnitCost(FlourBuy.(unitCostCents := None)).unitCostCents == Some(4)
  {
    assert 4000 as real / 1000.0 == 4 as real;
    Rounding.RoundHalfEvenOfInt(4);
  }

  lemma LatestInPantry()
    ensures CostHelpers.LatestPurchase(Pantry.purchases, Ingredient(1)) == Some(FlourBuy)
    ensures CostHelpers.LatestPurchase(Pantry.purchases, Ingredient(2)) == Some(SugarBuy)
    ensures CostHelpers.LatestPurchase(Pantry.purchases, Packaging(1)) == Some(BoxBuy)
    ensures CostHelpers.LatestPurchase(Pantry.purchases, Packaging(2)) == None
    ensures CostHelpers.LatestPurchase(Pantry.purchases, Ingredient(999)) == None
  {
    var ps := Pantry.purchases;
    assert ps[..2] == [FlourBuy, SugarBuy];
    assert ps[..2][..1] == [FlourBuy];
    assert ps[..2][..1][..0] == [];
  }

  /** A line whose item's latest purchase stores unit cost `u` costs the
      rounded product, whatever the default price. */
  lemma PricedLine(store: Store, key: ItemKey, p: Purchase, u: int, amount: real, n: int)
    requires CostHelpers.LatestPurchase(store.purchases, key) == Some(p) && p.unitCostCents == Some(u)
    requires u as real * amount == n as real
    ensures CostHelpers.LineCost(store, key, amount) == Some(n)
  {
    assert CostHelpers.ResolveUnitCost(store, key) == Some(u);
    CostHelpers.LineCostAtResolved(store, key, amount, u);
    RoundWhole(u as real * amount, n);
  }

  lemma RoundWhole(x: real, n: int)
    requires x == n as real
    ensures Rounding.RoundHalfEven(x) == n
  {
    Rounding.RoundHalfEvenOfInt(n);
  }

  /** Flour, sugar and boxes are priced at their one purchase's cost. */
  lemma FlourLine(amount: real, n: int)
    requires 4.0 * amount == n as real
    ensures CostHelpers.LineCost(Pantry, Ingredient(1), amount) == Some(n)
  {
    LatestInPantry();
    PricedLine(Pantry, Ingredient(1), FlourBuy, 4, amount, n);
  }

  lemma SugarLine(amount: real, n: int)
    requires 7.0 * amount == n as real
    ensures CostHelpers.LineCost(Pantry, Ingredient(2), amount) == Some(n)
  {
    LatestInPantry();
    PricedLine(Pantry, Ingredient(2), SugarBuy, 7, amount, n);
  }

  lemma BoxLine(amount: real, n: int)
    requires 40.0 * amount == n as real
    ensures CostHelpers.LineCost(Pantry, Packaging(1), amount) == Some(n)
  {
    LatestInPantry();
    PricedLine(Pantry, Packaging(1), BoxBuy, 40, amount, n);
  }

  /** An ingredient with neither a purchase nor a catalogue entry has no cost. */
  lemma UnknownLine(amount: real)
    ensures CostHelpers.LineCost(Pantry, Ingredient(999), amount) == None
  {
    LatestInPantry();
    assert 999 !in Pantry.ingredients;
  }

  /** 200 g of flour at 4 cents, 50 g of sugar at 7, two boxes at 40, and
      an unknown ingredient, which has no cost. */
  lemma LineCostsFromLatestPurchases()
    ensures CostHelpers.LineCost(Pantry, Ingredient(1), 200.0) == Some(800)
    ensures CostHelpers.LineCost(Pantry, Ingredient(2), 50.0) == Some(350)
    ensures CostHelpers.LineCost(Pantry, Packaging(1), 2.0) == Some(80)
    ensures CostHelpers.LineCost(Pantry, Ingredient(999), 100.0) == None
  {
    FlourLine(200.0, 800);
    SugarLine(50.0, 350);
    BoxLine(2.0, 80);
    UnknownLine(100.0);
  }

  /** Ribbon has no purchase: its 15-cent default applies, and half a metre
      costs 7.5 cents, which rounds to the even 8. */
  lemma RibbonFallsBackToDefault()
    ensures CostHelpers.LineCost(Pantry, Packaging(2), 0.5) == Some(8)
  {
    LatestInPantry();
    assert 15 as real * 0.5 == 7.5;
    Rounding.RoundHalfEvenUnique(7.5, 8);
  }

  /** The preview of 250 g flour and 100 g sugar: 1000 + 700 = 1700 cents
      of ingredients. */
  lemma PreviewIngredientFigure()
    ensures SumLineCosts(CostHelpers.SnapshotLines(Pantry, IngredientKind,
              [CostHelpers.LineRequest(1, 250.0), CostHelpers.LineRequest(2, 100.0)])) == 1700
  {
    var reqs := [CostHelpers.LineRequest(1, 250.0), CostHelpers.LineRequest(2, 100.0)];
    var ing := CostHelpers.SnapshotLines(Pantry, IngredientKind, reqs);
    FlourLine(250.0, 1000);
    SugarLine(100.0, 700);
    assert KeyOf(IngredientKind, reqs[0].id) == Ingredient(1);
    assert KeyOf(IngredientKind, reqs[1].id) == Ingredient(2);
    SumOfTwo(ing);
  }

  lemma SumOfTwo(lines: seq<OrderLine>)
    requires |lines| == 2
    ensures SumLineCosts(lines) == lines[0].costAtTimeOfUseCents + lines[1].costAtTimeOfUseCents
  {
    assert lines[..1][..0] == [];
    assert SumLineCosts(lines[..1]) == lines[0].costAtTimeOfUseCents;
  }

  /** The preview of three boxes: 120 cents of packaging. */
  lemma PreviewPackagingFigure()
    ensures SumLineCosts(CostHelpers.SnapshotLines(Pantry, PackagingKind, [CostHelpers.LineRequest(1, 3.0)])) == 120
  {
    BoxLine(3.0, 120);
    var pkg := CostHelpers.SnapshotLines(Pantry, PackagingKind, [CostHelpers.LineRequest(1, 3.0)]);
    assert pkg == [OrderLine(1, 3.0, 120)];
    assert pkg[..0] == [];
  }

  /** 1000 g of flour bought and two orders using 250 g and 100 g leave
      650 g in stock. */
  lemma StockAfterTwoOrders()
    ensures
      var o1 := Order(1, None, None, None, 2, 250.0, 1, 1, 0, 0, [OrderLine(1, 250.0, 1000)], []);
      var o2 := Order(2, None, None, None, 3, 100.0, 1, 1, 0, 0, [OrderLine(1, 100.0, 400)], []);
      Inventory.CurrentStock(Pantry.(orders := [o1, o2]), Ingredient(1)) == 650.0
  {
    var o1 := Order(1, None, None, None, 2, 250.0, 1, 1, 0, 0, [OrderLine(1, 250.0, 1000)], []);
    var o2 := Order(2, None, None, None, 3, 100.0, 1, 1, 0, 0, [OrderLine(1, 100.0, 400)], []);
    var ps := Pantry.purchases;
    assert ps[..2] == [FlourBuy, SugarBuy];
    assert ps[..2][..1] == [FlourBuy];
    assert ps[..2][..1][..0] == [];
    assert Inventory.TotalPurchased(ps[..2][..1][..0], Ingredient(1)) == 0.0;
    assert Inventory.TotalPurchased(ps[..2][..1], Ingredient(1)) == 1000.0;
    assert Inventory.TotalPurchased(ps[..2], Ingredient(1)) == 1000.0;
    assert Inventory.TotalPurchased(ps, Ingredient(1)) == 1000.0;
    assert [o1, o2][..1] == [o1] && [o1][..0] == [];
    assert o1.ingredients[..0] == [] && o2.ingredients[..0] == [];
    assert Inventory.UsedInLines(o1.ingredients, 1) == 250.0;
    assert Inventory.UsedInLines(o2.ingredients, 1) == 100.0;
    assert Inventory.TotalUsed([o1], Ingredient(1)) == 250.0;
    assert Inventory.TotalUsed([o1, o2], Ingredient(1)) == 350.0;
  }
}

=== FILE: inventory.dfy ===
/** `views/inventory.py`: live stock as purchases minus usage, reconciliation
    of a physical count by a zero-cost adjustment purchase, and the
    duplicate-name guard on adding an ingredient or packaging item. */
module Inventory {
  import opened Wrappers
  import opened Models

  datatype InventoryError = NotFound(key: ItemKey) | NameExists(name: string) | MissingField

  // ---------------------------------------------------------------------
  // Stock (adjust_inventory, and again inside process_adjustment)

  /** What one purchase adds to the purchased total of `key`: its quantity
      when it is typed as that item, else nothing. */
  function Contribution(p: Purchase, key: ItemKey): real {
    if p.item == Typed(key) then p.quantity else 0.0
  }

  /** Total quantity recorded in purchases of `key`, adjustments included
      (`sum(...) or 0`). */
  function TotalPurchased(ps: seq<Purchase>, key: ItemKey): real {
    if |ps| == 0 then 0.0
    else TotalPurchased(ps[..|ps| - 1], key) + Contribution(ps[|ps| - 1], key)
  }

  /** Total amount of item `id` in a list of order lines. */
  function UsedInLines(lines: seq<OrderLine>, id: int): real {
    if |lines| == 0 then 0.0
    else UsedInLines(lines[..|lines| - 1], id) + (if lines[|lines| - 1].itemId == id then lines[|lines| - 1].amountUsed else 0.0)
  }

  /** Total amount of `key` consumed by all orders: `amount_used` of its
      ingredient lines, or `quantity_used` of its packaging lines. */
  function TotalUsed(orders: seq<Order>, key: ItemKey): real {
    if |orders| == 0 then 0.0
    else TotalUsed(orders[..|orders| - 1], key) + UsedInLines(LinesOf(orders[|orders| - 1], key.Kind()), key.id)
  }

  /** Current stock: everything purchased minus everything used. */
  function CurrentStock(store: Store, key: ItemKey): real {
    TotalPurchased(store.purchases, key) - TotalUsed(store.orders, key)
  }

  lemma TotalPurchasedSnoc(ps: seq<Purchase>, p: Purchase, key: ItemKey)
    ensures TotalPurchased(ps + [p], key) == TotalPurchased(ps, key) + (if p.item == Typed(key) then p.quantity else 0.0)
  {
    assert (ps + [p])[..|ps|] == ps;
  }

  /** Appending a purchase moves the stock of its own item by its quantity and
      leaves every other item's stock as it was, including the item of the
      other kind with the same id. */
  lemma StockAfterPurchase(store: Store, p: Purchase, key: ItemKey)
    ensures CurrentStock(store.(purchases := store.purchases + [p]), key)
         == CurrentStock(store, key) + (if p.item == Typed(key) then p.quantity else 0.0)
  {
    TotalPurchasedSnoc(store.purchases, p, key);
  }

  /** Rewriting one purchase in place moves the purchased total of `key` by
      the new row's contribution less the old row's. */
  lemma {:induction false} TotalPurchasedUpdate(ps: seq<Purchase>, i: int, p: Purchase, key: ItemKey)
    requires 0 <= i < |ps|
    ensures TotalPurchased(ps[i := p], key) == TotalPurchased(ps, key) - Contribution(ps[i], key) + Contribution(p, key)
    decreases |ps|
  {
    var n := |ps| - 1;
    if i == n {
      assert ps[i := p][..n] == ps[..n];
    } else {
      assert ps[i := p][..n] == ps[..n][i := p];
      TotalPurchasedUpdate(ps[..n], i, p, key);
    }
  }

  /** Editing a purchase moves each item's stock by the new row's
      contribution less the old row's, and nothing else. */
  lemma StockAfterEdit(store: Store, i: int, p: Purchase, key: ItemKey)
    requires 0 <= i < |store.purchases|
    ensures CurrentStock(store.(purchases := store.purchases[i := p]), key)
         == CurrentStock(store, key) - Contribution(store.purchases[i], key) + Contribution(p, key)
  {
    TotalPurchasedUpdate(store.purchases, i, p, key);
  }

  // ---------------------------------------------------------------------
  // process_adjustment

  /** Differences no larger than this are treated as float noise. */
  const AdjustmentEpsilon: real := 0.001

  function AbsReal(x: real): real {
    if x < 0.0 then -x else x
  }

  /** The purchase recording a reconciliation: the signed difference, of
      total and unit cost 0, dated today, in the item's default unit. */
  function AdjustmentRecord(key: ItemKey, delta: real, unit: string, today: int): (p: Purchase)
    ensures p.item == Typed(key) && p.quantity == delta && p.date == today
    ensures p.totalCostCents == 0 && p.unitCostCents == Some(0)
  {
    Purchase(today, Typed(key), delta, unit, 0, Some(0))
  }

  /** Reconciles one item with a physical count. Unknown items abort the
      request (`get_or_404`). Otherwise an adjustment is written only when
      the count differs from the computed stock by more than the epsilon,
      and then the recomputed stock equals the count. Only the adjusted
      item's stock moves. */
  function AdjustItem(store: Store, key: ItemKey, actual: real, today: int): (r: Result<(Store, bool), InventoryError>)
    ensures r.Err? <==> Lookup(store, key).None?
    ensures r.Ok? ==>
      && r.value.0.ingredients == store.ingredients
      && r.value.0.packaging == store.packaging
      && r.value.0.orders == store.orders
      && (r.value.1 <==> AbsReal(actual - CurrentStock(store, key)) > AdjustmentEpsilon)
      && (r.value.1 ==>
            && r.value.0.purchases == store.purchases
                 + [AdjustmentRecord(key, actual - CurrentStock(store, key), Lookup(store, key).value.defaultUnit, today)]
            && CurrentStock(r.value.0, key) == actual)
      && (!r.value.1 ==> r.value.0 == store)
      && (forall other :: other != key ==> CurrentStock(r.value.0, other) == CurrentStock(store, other))
  {
    match Lookup(store, key)
    case None => Err(NotFound(key))
    case Some(item) =>
      var delta := actual - CurrentStock(store, key);
      if AbsReal(delta) > AdjustmentEpsilon then
        var rec := AdjustmentRecord(key, delta, item.defaultUnit, today);
        var s' := store.(purchases := store.purchases + [rec]);
        StockAfterPurchase(store, rec, key);
        assert forall other :: CurrentStock(s', other) == CurrentStock(store, other) + (if rec.item == Typed(other) then delta else 0.0) by {
          forall other ensures CurrentStock(s', other) == CurrentStock(store, other) + (if rec.item == Typed(other) then delta else 0.0) {
            StockAfterPurchase(store, rec, other);
          }
        }
        Ok((s', true))
      else
        Ok((store, false))
  }

  /** Submitting the same count again writes nothing. */
  lemma AdjustIsIdempotent(store: Store, key: ItemKey, actual: real, today: int, later: int)
    requires AdjustItem(store, key, actual, today).Ok?
    ensures AdjustItem(AdjustItem(store, key, actual, today).value.0, key, actual, later)
         == Ok((AdjustItem(store, key, actual, today).value.0, false))
  {
  }

  /** One `ingredient_<id>` / `packaging_<id>` form field: its kind (none for
      other fields), its parsed id and its parsed count (none when `int()` or
      `float()` would raise). */
  datatype AdjustmentField = AdjustmentField(kind: Option<ItemKind>, id: Option<int>, actual: Option<real>)

  /** A field that reaches the stock computation: known prefix, parsable id and count. */
  predicate Parsed(f: AdjustmentField) {
    f.kind.Some? && f.id.Some? && f.actual.Some?
  }

  function FieldKey(f: AdjustmentField): ItemKey
    requires Parsed(f)
  {
    KeyOf(f.kind.value, f.id.value)
  }

  /** The whole form: unparsable fields are skipped, each other field is
      reconciled against the stock as updated by the fields before it, and
      any unknown item aborts the request with nothing persisted. The count
      reported is the number of adjustment purchases appended, each of total
      and unit cost 0; items no field names keep their stock, and each item
      a field names ends within the epsilon of the last count given for it. */
  method ProcessAdjustment(store: Store, fields: seq<AdjustmentField>, today: int)
    returns (r: Result<(Store, nat), InventoryError>)
    ensures r.Err? <==> exists i :: 0 <= i < |fields| && Parsed(fields[i]) && Lookup(store, FieldKey(fields[i])).None?
    ensures r.Ok? ==>
      && r.value.0.ingredients == store.ingredients
      && r.value.0.packaging == store.packaging
      && r.value.0.orders == store.orders
      && |r.value.0.purchases| == |store.purchases| + r.value.1
      && r.value.0.purchases[..|store.purchases|] == store.purchases
      && (forall i :: |store.purchases| <= i < |r.value.0.purchases| ==>
            r.value.0.purchases[i].totalCostCents == 0 && r.value.0.purchases[i].unitCostCents == Some(0))
      && (r.value.1 == 0 ==> r.value.0 == store)
    ensures r.Ok? ==> forall key ::
      (forall i :: 0 <= i < |fields| && Parsed(fields[i]) ==> FieldKey(fields[i]) != key) ==>
        CurrentStock(r.value.0, key) == CurrentStock(store, key)
    ensures r.Ok? ==> Reconciled(r.value.0, fields, |fields|)
  {
    // The catalogues never change inside the loop, so an unknown item found
    // before it is the one the loop would abort on, with nothing persisted.
    if !AllKnown(store, fields) {
      var j :| 0 <= j < |fields| && Parsed(fields[j]) && Lookup(store, FieldKey(fields[j])).None?;
      return Err(NotFound(FieldKey(fields[j])));
    }
    var s, count := ReconcileAll(store, fields, today);
    r := Ok((s, count));
  }

  /** The loop of `ProcessAdjustment` once every parsed field is known to name
      a catalogue item: the fields in order, each against the stock the
      fields before it left. */
  method ReconcileAll(store: Store, fields: seq<AdjustmentField>, today: int) returns (s: Store, count: nat)
    requires AllKnown(store, fields)
    ensures s.ingredients == store.ingredients && s.packaging == store.packaging && s.orders == store.orders
    ensures |s.purchases| == |store.purchases| + count
    ensures ExtendsByZeroCost(store.purchases, s.purchases)
    ensures count == 0 ==> s == store
    ensures Untouched(store, s, fields, |fields|)
    ensures Reconciled(s, fields, |fields|)
  {
    s := store;
    count := 0;
    var i := 0;
    while i < |fields|
      invariant 0 <= i <= |fields|
      invariant s.ingredients == store.ingredients && s.packaging == store.packaging && s.orders == store.orders
      invariant |s.purchases| == |store.purchases| + count
      invariant ExtendsByZeroCost(store.purchases, s.purchases)
      invariant count == 0 ==> s == store
      invariant Untouched(store, s, fields, i)
      invariant Reconciled(s, fields, i)
    {
      var f := fields[i];
      if Parsed(f) {
        var key := FieldKey(f);
        assert Lookup(s, key) == Lookup(store, key);
        var step := ReconcileStep(s, key, f.actual.value, today);
        var (s', written) := step.value;
        StockUntouchedStep(store, s, s', fields, i);
        ReconciledStep(s, s', fields, i);
        if written {
          ExtendsByZeroCostSnoc(store.purchases, s.purchases, s'.purchases[|s.purchases|]);
          count := count + 1;
        }
        s := s';
      } else {
        StockUntouchedSkip(store, s, fields, i);
        ReconciledSkip(s, fields, i);
      }
      i := i + 1;
    }
  }

  /** One field's reconciliation as the loop of `ProcessAdjustment` sees
      it: at most one zero-cost row appended, and no other item's stock moved. */
  method ReconcileStep(s: Store, key: ItemKey, actual: real, today: int) returns (r: Result<(Store, bool), InventoryError>)
    ensures r.Err? <==> Lookup(s, key).None?
    ensures r.Ok? ==>
      && r.value.0.ingredients == s.ingredients
      && r.value.0.packaging == s.packaging
      && r.value.0.orders == s.orders
      && (r.value.1 ==>
            && |r.value.0.purchases| == |s.purchases| + 1
            && r.value.0.purchases == s.purchases + [r.value.0.purchases[|s.purchases|]]
            && r.value.0.purchases[|s.purchases|].totalCostCents == 0
            && r.value.0.purchases[|s.purchases|].unitCostCents == Some(0))
      && (!r.value.1 ==> r.value.0 == s)
      && (forall other :: other != key ==> CurrentStock(r.value.0, other) == CurrentStock(s, other))
      && AbsReal(actual - CurrentStock(r.value.0, key)) <= AdjustmentEpsilon
  {
    r := AdjustItem(s, key, actual, today);
  }

  /** Every parsed field names an item of the catalogues of `s`. */
  predicate AllKnown(s: Store, fields: seq<AdjustmentField>) {
    forall j :: 0 <= j < |fields| && Parsed(fields[j]) ==> Lookup(s, FieldKey(fields[j])).Some?
  }

  /** No parsed field after `i` and before `n` names the item field `i` names. */
  predicate LastFor(fields: seq<AdjustmentField>, i: int, n: int)
    requires 0 <= i < |fields| && n <= |fields| && Parsed(fields[i])
  {
    forall m :: i < m < n && Parsed(fields[m]) ==> FieldKey(fields[m]) != FieldKey(fields[i])
  }

  /** Every item named among the first `n` fields stands within the epsilon
      of the last count given for it there. */
  predicate Reconciled(s: Store, fields: seq<AdjustmentField>, n: int)
    requires 0 <= n <= |fields|
  {
    forall i :: (0 <= i < n && Parsed(fields[i]) && LastFor(fields, i, n)) ==>
      AbsReal(fields[i].actual.value - CurrentStock(s, FieldKey(fields[i]))) <= AdjustmentEpsilon
  }

  lemma ReconciledStep(s: Store, s': Store, fields: seq<AdjustmentField>, n: int)
    requires 0 <= n < |fields| && Parsed(fields[n]) && Reconciled(s, fields, n)
    requires forall other :: other != FieldKey(fields[n]) ==> CurrentStock(s', other) == CurrentStock(s, other)
    requires AbsReal(fields[n].actual.value - CurrentStock(s', FieldKey(fields[n]))) <= AdjustmentEpsilon
    ensures Reconciled(s', fields, n + 1)
  {
    forall i | 0 <= i < n + 1 && Parsed(fields[i]) && LastFor(fields, i, n + 1)
      ensures AbsReal(fields[i].actual.value - CurrentStock(s', FieldKey(fields[i]))) <= AdjustmentEpsilon
    {
      if i < n {
        assert FieldKey(fields[n]) != FieldKey(fields[i]);
        assert LastFor(fields, i, n);
      }
    }
  }

  lemma ReconciledSkip(s: Store, fields: seq<AdjustmentField>, n: int)
    requires 0 <= n < |fields| && !Parsed(fields[n]) && Reconciled(s, fields, n)
    ensures Reconciled(s, fields, n + 1)
  {
    forall i | 0 <= i < n + 1 && Parsed(fields[i]) && LastFor(fields, i, n + 1)
      ensures AbsReal(fields[i].actual.value - CurrentStock(s, FieldKey(fields[i]))) <= AdjustmentEpsilon
    {
      assert LastFor(fields, i, n);
    }
  }

  /** `ps` is `base` followed by zero-cost rows only. */
  predicate ExtendsByZeroCost(base: seq<Purchase>, ps: seq<Purchase>) {
    && |base| <= |ps|
    && ps[..|base|] == base
    && forall j :: |base| <= j < |ps| ==> ps[j].totalCostCents == 0 && ps[j].unitCostCents == Some(0)
  }

  lemma ExtendsByZeroCostSnoc(base: seq<Purchase>, ps: seq<Purchase>, p: Purchase)
    requires ExtendsByZeroCost(base, ps) && p.totalCostCents == 0 && p.unitCostCents == Some(0)
    ensures ExtendsByZeroCost(base, ps + [p])
  {
    assert (ps + [p])[..|base|] == ps[..|base|];
  }

  /** Every item none of the first `n` fields names has its stock in `s`
      as in `store`. */
  ghost predicate Untouched(store: Store, s: Store, fields: seq<AdjustmentField>, n: int)
    requires 0 <= n <= |fields|
  {
    forall key ::
      (forall j :: 0 <= j < n && Parsed(fields[j]) ==> FieldKey(fields[j]) != key) ==>
        CurrentStock(s, key) == CurrentStock(store, key)
  }

  /** The loop step of `ProcessAdjustment`: reconciling field `i` leaves
      the stock of every item no field up to `i` names as it was. */
  lemma StockUntouchedStep(store: Store, s: Store, s': Store, fields: seq<AdjustmentField>, i: int)
    requires 0 <= i < |fields| && Parsed(fields[i]) && Untouched(store, s, fields, i)
    requires forall other :: other != FieldKey(fields[i]) ==> CurrentStock(s', other) == CurrentStock(s, other)
    ensures Untouched(store, s', fields, i + 1)
  {
  }

  lemma StockUntouchedSkip(store: Store, s: Store, fields: seq<AdjustmentField>, i: int)
    requires 0 <= i < |fields| && !Parsed(fields[i]) && Untouched(store, s, fields, i)
    ensures Untouched(store, s, fields, i + 1)
  {
  }

  // ---------------------------------------------------------------------
  // add_ingredient / add_packaging

  predicate NameTaken(catalog: map<int, StockItem>, name: string) {
    exists id :: id in catalog && catalog[id].name == name
  }

  /** The `unique=True` constraint on item names. */
  predicate UniqueNames(catalog: map<int, StockItem>) {
    forall a, b :: a in catalog && b in catalog && catalog[a].name == catalog[b].name ==> a == b
  }

  /** The `low_stock_threshold` column's default, which the insert applies
      when the form gives no threshold. */
  const DefaultLowStockThreshold: real := 0.0

  /** The add form as `request.form.get` reads it: none for a missing field. */
  datatype StockItemForm = StockItemForm(
    name: Option<string>,
    defaultUnit: Option<string>,
    defaultPricePerUnitCents: Option<int>,
    lowStockThreshold: Option<real>)

  /** Adds an item under the id the store assigns, unless an item of the
      same kind already has its name, in which case nothing is inserted. A
      missing name finds no duplicate (no stored name is null), but the
      insert of a missing name or unit then fails its `NOT NULL` column and
      nothing is added either. */
  function AddStockItem(store: Store, kind: ItemKind, newId: int, form: StockItemForm): (r: Result<Store, InventoryError>)
    requires newId !in Catalog(store, kind)
    ensures r.Err? <==> form.name.None? || form.defaultUnit.None? || NameTaken(Catalog(store, kind), form.name.value)
    ensures form.name.Some? && NameTaken(Catalog(store, kind), form.name.value) ==> r == Err(NameExists(form.name.value))
    ensures form.name.None? || (form.defaultUnit.None? && !NameTaken(Catalog(store, kind), form.name.value)) ==>
      r == Err(MissingField)
    ensures r.Ok? ==>
      && Catalog(r.value, kind) == Catalog(store, kind)[newId := StockItem(form.name.value, form.defaultUnit.value,
                                                                          form.defaultPricePerUnitCents,
                                                                          Some(form.lowStockThreshold.GetOr(DefaultLowStockThreshold)))]
      && r.value.purchases == store.purchases && r.value.orders == store.orders
      && (kind.IngredientKind? ==> r.value.packaging == store.packaging)
      && (kind.PackagingKind? ==> r.value.ingredients == store.ingredients)
    ensures r.Ok? && form.lowStockThreshold.None? ==> Catalog(r.value, kind)[newId].lowStockThreshold == Some(0.0)
    ensures r.Ok? && UniqueNames(Catalog(store, kind)) ==> UniqueNames(Catalog(r.value, kind))
  {
    if form.name.Some? && NameTaken(Catalog(store, kind), form.name.value) then Err(NameExists(form.name.value))
    else if form.name.None? || form.defaultUnit.None? then Err(MissingField)
    else
      var item := StockItem(form.name.value, form.defaultUnit.value, form.defaultPricePerUnitCents,
                            Some(form.lowStockThreshold.GetOr(DefaultLowStockThreshold)));
      match kind
      case IngredientKind => Ok(store.(ingredients := store.ingredients[newId := item]))
      case PackagingKind => Ok(store.(packaging := store.packaging[newId := item]))
  }
}

=== FILE: models.dfy ===
/** The record types of the bakery ledger and the derived figures `models.py`
    attaches to them: a purchase's unit cost and an order's snapshot totals,
    profit and margin. Money is in whole cents (`int`), amounts are exact
    `real`s, and nullable columns are `Option`s. */
module Models {
  import opened Wrappers
  import Rounding

  /** Which of the two stock tables an item lives in. */
  datatype ItemKind = IngredientKind | PackagingKind

  /** A purchase's `(item_type, item_id)` pair as a tagged key. */
  datatype ItemKey = Ingredient(id: int) | Packaging(id: int)
  {
    function Kind(): ItemKind {
      if Ingredient? then IngredientKind else PackagingKind
    }
  }

  function KeyOf(kind: ItemKind, id: int): (k: ItemKey)
    ensures k.Kind() == kind && k.id == id
  {
    match kind
    case IngredientKind => Ingredient(id)
    case PackagingKind => Packaging(id)
  }

  /** A purchase's `item_type` and `item_id`: a key of one of the two kinds,
      or an id under a null type, which the column's `CHECK` lets through
      and which no per-kind query ever selects. */
  datatype PurchaseItem = Typed(key: ItemKey) | Untyped(id: int)

  /** A row of `ingredients` or `packaging`. */
  datatype StockItem = StockItem(
    name: string,
    defaultUnit: string,
    defaultPricePerUnitCents: Option<int>,
    lowStockThreshold: Option<real>)

  /** A row of `purchases`; adjustments are purchases of total cost 0. */
  datatype Purchase = Purchase(
    date: int,
    item: PurchaseItem,
    quantity: real,
    unit: string,
    totalCostCents: int,
    unitCostCents: Option<int>)

  /** An `order_ingredients` or `order_packaging` row: the item used, how much,
      and the cost frozen onto it when the order was created. */
  datatype OrderLine = OrderLine(itemId: int, amountUsed: real, costAtTimeOfUseCents: int)

  datatype Order = Order(
    id: int,
    customerId: Option<int>,
    recipeId: Option<int>,
    cookieSize: Option<string>,
    date: int,
    doughWeightG: real,
    quantityOrdered: int,
    quantityBaked: int,
    quantityKeptFamily: int,
    salePriceTotalCents: int,
    ingredients: seq<OrderLine>,
    packaging: seq<OrderLine>)

  /** The `cookie_size` check constraint of recipes and orders; a null size
      passes it. */
  predicate ValidCookieSize(size: Option<string>) {
    size.None? || size.value in {"mini", "regular", "large"}
  }

  /** The persistent store, reduced to the tables the cost core reads. */
  datatype Store = Store(
    ingredients: map<int, StockItem>,
    packaging: map<int, StockItem>,
    purchases: seq<Purchase>,
    orders: seq<Order>)

  /** The catalogue table of one item kind. */
  function Catalog(store: Store, kind: ItemKind): map<int, StockItem> {
    match kind
    case IngredientKind => store.ingredients
    case PackagingKind => store.packaging
  }

  /** `Ingredient.query.get(id)` / `Packaging.query.get(id)`. */
  function Lookup(store: Store, key: ItemKey): (r: Option<StockItem>)
    ensures r.Some? <==> key.id in Catalog(store, key.Kind())
    ensures r.Some? ==> r.value == Catalog(store, key.Kind())[key.id]
  {
    var m := Catalog(store, key.Kind());
    if key.id in m then Some(m[key.id]) else None
  }

  /** The order lines of one kind. */
  function LinesOf(o: Order, kind: ItemKind): seq<OrderLine> {
    match kind
    case IngredientKind => o.ingredients
    case PackagingKind => o.packaging
  }

  // ---------------------------------------------------------------------
  // Purchase.calculate_unit_cost

  /** Recomputes the stored unit cost: only when both the quantity and the
      total are non-zero (Python truthiness), to the nearest cent with ties to
      even; otherwise the previous value stays. */
  function CalculateUnitCost(p: Purchase): (q: Purchase)
    ensures q == p.(unitCostCents := q.unitCostCents)
    ensures p.quantity != 0.0 && p.totalCostCents != 0 ==>
      q.unitCostCents.Some? && Rounding.IsRoundHalfEven(p.totalCostCents as real / p.quantity, q.unitCostCents.value)
    ensures p.quantity == 0.0 || p.totalCostCents == 0 ==> q == p
  {
    if p.quantity != 0.0 && p.totalCostCents != 0 then
      p.(unitCostCents := Some(Rounding.RoundHalfEven(p.totalCostCents as real / p.quantity)))
    else p
  }

  // ---------------------------------------------------------------------
  // Order derived figures

  /** Sum of the frozen costs of a list of order lines (`sum(...)`, 0 when empty). */
  function SumLineCosts(lines: seq<OrderLine>): int {
    if |lines| == 0 then 0
    else SumLineCosts(lines[..|lines| - 1]) + lines[|lines| - 1].costAtTimeOfUseCents
  }

  /** Sum of the amounts of a list of order lines. */
  function SumLineAmounts(lines: seq<OrderLine>): real {
    if |lines| == 0 then 0.0
    else SumLineAmounts(lines[..|lines| - 1]) + lines[|lines| - 1].amountUsed
  }

  lemma {:induction false} SumLineCostsAppend(a: seq<OrderLine>, b: seq<OrderLine>)
    ensures SumLineCosts(a + b) == SumLineCosts(a) + SumLineCosts(b)
    decreases |b|
  {
    if |b| > 0 {
      assert (a + b)[..|a + b| - 1] == a + b[..|b| - 1];
      SumLineCostsAppend(a, b[..|b| - 1]);
    } else {
      assert a + b == a;
    }
  }

  /** With no negative line cost the sum is at least every line's cost,
      and so never negative. */
  lemma {:induction false} SumLineCostsBounds(lines: seq<OrderLine>)
    ensures (forall l :: l in lines ==> l.costAtTimeOfUseCents >= 0) ==>
      0 <= SumLineCosts(lines) && forall l :: l in lines ==> l.costAtTimeOfUseCents <= SumLineCosts(lines)
  {
    if |lines| > 0 {
      var front := lines[..|lines| - 1];
      assert forall l :: l in lines <==> l in front || l == lines[|lines| - 1];
      SumLineCostsBounds(front);
    }
  }

  /** Summing from the first line: the same total as from the last. */
  lemma SumLineCostsFromFirst(lines: seq<OrderLine>)
    ensures |lines| > 0 ==> SumLineCosts(lines) == lines[0].costAtTimeOfUseCents + SumLineCosts(lines[1..])
  {
    if |lines| > 0 {
      assert lines == [lines[0]] + lines[1..];
      SumLineCostsAppend([lines[0]], lines[1..]);
      assert [lines[0]][..0] == [];
    }
  }

  /** `ingredient_cost_cents`: the frozen costs of the order's ingredient
      lines added up, 0 with no line. */
  function IngredientCostCents(o: Order): (r: int)
    ensures |o.ingredients| == 0 ==> r == 0
  {
    SumLineCosts(o.ingredients)
  }

  /** `packaging_cost_cents`: likewise over the packaging lines. */
  function PackagingCostCents(o: Order): (r: int)
    ensures |o.packaging| == 0 ==> r == 0
  {
    SumLineCosts(o.packaging)
  }

  /** Both line sums, read from the first line on, agree with the running
      total; with no negative line cost each is at least every one of its
      lines' costs. */
  lemma OrderLineCosts(o: Order)
    ensures |o.ingredients| > 0 ==>
      IngredientCostCents(o) == o.ingredients[0].costAtTimeOfUseCents + SumLineCosts(o.ingredients[1..])
    ensures |o.packaging| > 0 ==>
      PackagingCostCents(o) == o.packaging[0].costAtTimeOfUseCents + SumLineCosts(o.packaging[1..])
    ensures (forall l :: l in o.ingredients ==> l.costAtTimeOfUseCents >= 0) ==>
      0 <= IngredientCostCents(o) && forall l :: l in o.ingredients ==> l.costAtTimeOfUseCents <= IngredientCostCents(o)
    ensures (forall l :: l in o.packaging ==> l.costAtTimeOfUseCents >= 0) ==>
      0 <= PackagingCostCents(o) && forall l :: l in o.packaging ==> l.costAtTimeOfUseCents <= PackagingCostCents(o)
  {
    SumLineCostsFromFirst(o.ingredients);
    SumLineCostsFromFirst(o.packaging);
    SumLineCostsBounds(o.ingredients);
    SumLineCostsBounds(o.packaging);
  }

  /** The order's cost: every frozen line cost, ingredients and packaging alike. */
  function TotalCostCents(o: Order): (r: int)
    ensures r == SumLineCosts(o.ingredients + o.packaging)
  {
    SumLineCostsAppend(o.ingredients, o.packaging);
    IngredientCostCents(o) + PackagingCostCents(o)
  }

  /** Sale price less cost: the profit and the frozen costs add back to the price. */
  function ProfitCents(o: Order): (r: int)
    ensures r + IngredientCostCents(o) + PackagingCostCents(o) == o.salePriceTotalCents
  {
    o.salePriceTotalCents - TotalCostCents(o)
  }

  /** Profit as a percentage of the sale price; 0 for a free order. */
  function ProfitMargin(o: Order): (r: real)
    ensures o.salePriceTotalCents == 0 ==> r == 0.0
    ensures o.salePriceTotalCents != 0 ==> r * o.salePriceTotalCents as real == ProfitCents(o) as real * 100.0
  {
    if o.salePriceTotalCents == 0 then 0.0
    else (ProfitCents(o) as real / o.salePriceTotalCents as real) * 100.0
  }
}

=== FILE: orders.dfy ===
/** `views/orders.py`: the order wizard's line selection and dough weight,
    order creation with its cost snapshot, and the cost-preview endpoint's
    per-cookie and margin figures. */
module Orders {
  import opened Wrappers
  import opened Models
  import Rounding
  import CostHelpers
  import Purchases

  datatype OrderError = BadValue | UnknownItem(id: int) | MissingField | DuplicateLine | BadRequest | NewCustomerRejected

  // ---------------------------------------------------------------------
  // new_order_step3 / new_order_step5

  /** An `ingredient_amount_<id>` / `packaging_quantity_<id>` field: the id
      from its name and its value, each none when `int()` / `float()` fails. */
  datatype WizardField = WizardField(id: Option<int>, value: Option<real>)

  /** The field becomes a line: its value is a positive number. */
  predicate Selected(f: WizardField) {
    f.value.Some? && f.value.value > 0.0
  }

  /** A value that does not parse, or a selected field whose id does not
      parse or names no item, makes the wizard step fail. */
  predicate WizardFieldFails(catalog: map<int, StockItem>, f: WizardField) {
    f.value.None? || (Selected(f) && (f.id.None? || f.id.value !in catalog))
  }

  /** The lines a wizard step keeps: the selected fields, in form order,
      each with its id and value. */
  function SelectWizardLines(catalog: map<int, StockItem>, fields: seq<WizardField>): (r: Result<seq<CostHelpers.LineRequest>, OrderError>)
    ensures r.Err? <==> exists i :: 0 <= i < |fields| && WizardFieldFails(catalog, fields[i])
    ensures r.Ok? ==> forall l :: l in r.value <==>
      exists i :: 0 <= i < |fields| && Selected(fields[i]) && l == CostHelpers.LineRequest(fields[i].id.value, fields[i].value.value)
    ensures r.Ok? ==> forall l :: l in r.value ==> l.amount > 0.0 && l.id in catalog
    ensures r.Ok? ==> forall l :: multiset(r.value)[l] ==
                        if l.amount > 0.0 then multiset(fields)[WizardField(Some(l.id), Some(l.amount))] else 0
  {
    if |fields| == 0 then Ok([])
    else
      var front := fields[..|fields| - 1];
      var f := fields[|fields| - 1];
      assert fields == front + [f];
      match SelectWizardLines(catalog, front)
      case Err(e) => Err(e)
      case Ok(lines) =>
        if f.value.None? then Err(BadValue)
        else if !Selected(f) then Ok(lines)
        else if f.id.None? then Err(BadValue)
        else if f.id.value !in catalog then Err(UnknownItem(f.id.value))
        else Ok(lines + [CostHelpers.LineRequest(f.id.value, f.value.value)])
  }

  /** The amounts of the lines added up, last line last. */
  function SumAmounts(lines: seq<CostHelpers.LineRequest>): real {
    if |lines| == 0 then 0.0 else SumAmounts(lines[..|lines| - 1]) + lines[|lines| - 1].amount
  }

  /** The total of two runs of lines is the sum of their totals. */
  lemma {:induction false} SumAmountsAppend(a: seq<CostHelpers.LineRequest>, b: seq<CostHelpers.LineRequest>)
    ensures SumAmounts(a + b) == SumAmounts(a) + SumAmounts(b)
    decreases |b|
  {
    if |b| > 0 {
      assert (a + b)[..|a + b| - 1] == a + b[..|b| - 1];
      SumAmountsAppend(a, b[..|b| - 1]);
    } else {
      assert a + b == a;
    }
  }

  /** Dough weight: with a recipe chosen (a non-zero id) the selected
      ingredient amounts add up; without one it is 0. With positive amounts
      it is positive exactly when a recipe is chosen and a line was kept. */
  function DoughWeight(recipeId: Option<int>, lines: seq<CostHelpers.LineRequest>): (w: real)
    ensures recipeId.None? || recipeId.value == 0 ==> w == 0.0
    ensures recipeId.Some? && recipeId.value != 0 ==> w == SumAmounts(lines)
    ensures (forall l :: l in lines ==> l.amount > 0.0) ==>
      (w > 0.0 <==> recipeId.Some? && recipeId.value != 0 && |lines| > 0)
  {
    if recipeId.Some? && recipeId.value != 0 then
      PositiveSum(lines);
      SumAmounts(lines)
    else 0.0
  }

  lemma {:induction false} PositiveSum(lines: seq<CostHelpers.LineRequest>)
    ensures (forall l :: l in lines ==> l.amount > 0.0) ==> (SumAmounts(lines) > 0.0 <==> |lines| > 0)
    ensures (forall l :: l in lines ==> l.amount > 0.0) ==> SumAmounts(lines) >= 0.0
  {
    if |lines| > 0 {
      var front := lines[..|lines| - 1];
      assert forall l :: l in front ==> l in lines;
      PositiveSum(front);
    }
  }

  // ---------------------------------------------------------------------
  // create_order

  /** An `ingredient_id_<i>` / `packaging_id_<i>` field with its matching
      amount or quantity field, as parsed (none when missing or unparsable). */
  datatype LineField = LineField(id: Option<int>, amount: Option<real>)

  /** The field names an item (a non-zero id). */
  predicate NamesItem(f: LineField) {
    f.id.Some? && f.id.value != 0
  }

  /** `if ingredient_id and amount > 0`: comparing a missing amount raises. */
  predicate LineFieldFails(f: LineField) {
    NamesItem(f) && f.amount.None?
  }

  predicate LineKept(f: LineField) {
    NamesItem(f) && f.amount.Some? && f.amount.value > 0.0
  }

  /** The lines `create_order` passes to the snapshot: those with a non-zero
      id and a positive amount, in form order. */
  function CreateOrderLines(fields: seq<LineField>): (r: Result<seq<CostHelpers.LineRequest>, OrderError>)
    ensures r.Err? <==> exists i :: 0 <= i < |fields| && LineFieldFails(fields[i])
    ensures r.Ok? ==> forall l :: l in r.value <==>
      exists i :: 0 <= i < |fields| && LineKept(fields[i]) && l == CostHelpers.LineRequest(fields[i].id.value, fields[i].amount.value)
    ensures r.Ok? ==> forall l :: l in r.value ==> l.id != 0 && l.amount > 0.0
    ensures r.Ok? ==> forall l :: multiset(r.value)[l] ==
                        if l.id != 0 && l.amount > 0.0 then multiset(fields)[LineField(Some(l.id), Some(l.amount))] else 0
  {
    if |fields| == 0 then Ok([])
    else
      var front := fields[..|fields| - 1];
      var f := fields[|fields| - 1];
      assert fields == front + [f];
      match CreateOrderLines(front)
      case Err(e) => Err(e)
      case Ok(lines) =>
        if !NamesItem(f) then Ok(lines)
        else if f.amount.None? then Err(BadValue)
        else if f.amount.value > 0.0 then Ok(lines + [CostHelpers.LineRequest(f.id.value, f.amount.value)])
        else Ok(lines)
  }

  /** The `(order_id, item_id)` primary key: no item twice in one order. */
  predicate DistinctIds(lines: seq<CostHelpers.LineRequest>) {
    forall i, j :: 0 <= i < j < |lines| ==> lines[i].id != lines[j].id
  }

  /** The order header fields of the final form. `newCustomer` holds when
      no customer id but a customer name and type were given: the route then
      builds a `Customer` from `name` and `customer_type`, keywords the model
      does not have, so the constructor raises and the request rolls back. */
  datatype OrderForm = OrderForm(
    newCustomer: bool,
    customerId: Option<int>,
    recipeId: Option<int>,
    cookieSize: Option<string>,
    doughWeightG: Option<real>,
    quantityOrdered: Option<int>,
    quantityBaked: Option<int>,
    quantityKeptFamily: Option<int>,
    salePriceTotalCents: Option<int>,
    ingredients: seq<LineField>,
    packaging: seq<LineField>)

  /** `create_order`: in one transaction, the order and one snapshot line per
      kept line are written, with costs frozen from the current ledger, so
      the order's cost is exactly the preview of the same lines. Any failure
      (a missing non-null column, an unreadable amount, an item listed twice)
      rolls back and leaves the store untouched. Ledger and catalogues are
      never changed. */
  function CreateOrder(store: Store, form: OrderForm, orderId: int, now: int): (r: Result<Store, OrderError>)
    ensures form.newCustomer ==> r.Err?
    ensures r.Ok? ==>
      && form.doughWeightG.Some? && form.quantityOrdered.Some? && form.quantityBaked.Some? && form.salePriceTotalCents.Some?
      && ValidCookieSize(form.cookieSize)
      && CreateOrderLines(form.ingredients).Ok? && CreateOrderLines(form.packaging).Ok?
      && DistinctIds(CreateOrderLines(form.ingredients).value) && DistinctIds(CreateOrderLines(form.packaging).value)
    ensures r.Ok? ==>
      && |r.value.orders| == |store.orders| + 1
      && r.value == store.(orders := store.orders + [r.value.orders[|store.orders|]])
      && var o := r.value.orders[|store.orders|];
         && o.id == orderId && o.customerId == form.customerId && o.recipeId == form.recipeId
         && o.cookieSize == form.cookieSize && o.date == now && o.doughWeightG == form.doughWeightG.value
         && o.quantityOrdered == form.quantityOrdered.value && o.quantityBaked == form.quantityBaked.value
         && o.quantityKeptFamily == (if form.quantityKeptFamily.Some? then form.quantityKeptFamily.value else 0)
         && o.salePriceTotalCents == form.salePriceTotalCents.value
         && o.ingredients == CostHelpers.SnapshotLines(store, IngredientKind, CreateOrderLines(form.ingredients).value)
         && o.packaging == CostHelpers.SnapshotLines(store, PackagingKind, CreateOrderLines(form.packaging).value)
    ensures !form.newCustomer
      && form.doughWeightG.Some? && form.quantityOrdered.Some? && form.quantityBaked.Some? && form.salePriceTotalCents.Some?
      && ValidCookieSize(form.cookieSize)
      && CreateOrderLines(form.ingredients).Ok? && CreateOrderLines(form.packaging).Ok?
      && DistinctIds(CreateOrderLines(form.ingredients).value) && DistinctIds(CreateOrderLines(form.packaging).value)
      ==> r.Ok?
  {
    if form.newCustomer then Err(NewCustomerRejected)
    else if form.doughWeightG.None? || form.quantityOrdered.None? || form.quantityBaked.None? || form.salePriceTotalCents.None? then
      Err(MissingField)
    else if !ValidCookieSize(form.cookieSize) then Err(BadValue)
    else
      match (CreateOrderLines(form.ingredients), CreateOrderLines(form.packaging))
      case (Ok(ingredients), Ok(packaging)) =>
        if !DistinctIds(ingredients) || !DistinctIds(packaging) then Err(DuplicateLine)
        else
          var snapshot := CostHelpers.SnapshotOrderCosts(store, ingredients, packaging);
          var o := Order(orderId, form.customerId, form.recipeId, form.cookieSize, now, form.doughWeightG.value,
                         form.quantityOrdered.value, form.quantityBaked.value, form.quantityKeptFamily.GetOr(0),
                         form.salePriceTotalCents.value, snapshot.ingredients, snapshot.packaging);
          Ok(store.(orders := store.orders + [o]))
      case (Err(e), _) => Err(e)
      case (_, Err(e)) => Err(e)
  }

  /** What the wizard previewed is what the new order records: the preview
      figures computed from the same lines and ledger are the created order's
      ingredient, packaging and total cost. */
  method PreviewMatchesCreatedOrder(store: Store, form: OrderForm, orderId: int, now: int)
    returns (preview: CostHelpers.CostPreview)
    requires CreateOrder(store, form, orderId, now).Ok?
    ensures var o := CreateOrder(store, form, orderId, now).value.orders[|store.orders|];
      && preview.ingredientCostCents == IngredientCostCents(o)
      && preview.packagingCostCents == PackagingCostCents(o)
      && preview.totalCostCents == TotalCostCents(o)
  {
    preview := CostHelpers.CalculateOrderCostPreview(store, CreateOrderLines(form.ingredients).value, CreateOrderLines(form.packaging).value);
  }

  /** Costs are frozen: recording a later purchase (at any price) leaves
      every existing order, and so its cost and profit, exactly as it was. */
  lemma PurchaseKeepsOrderCosts(store: Store, form: Purchases.PurchaseForm, today: int, i: int)
    requires 0 <= i < |store.orders|
    ensures var r := Purchases.AddPurchase(store, form, today);
      r.Ok? ==> && TotalCostCents(r.value.orders[i]) == TotalCostCents(store.orders[i])
                && ProfitCents(r.value.orders[i]) == ProfitCents(store.orders[i])
  {
  }

  const Flour := StockItem("Flour", "g", Some(5), None)
  const FirstFlour := Purchase(1, Typed(Ingredient(1)), 1000.0, "g", 4000, Some(4))
  const SecondFlour := Purchase(3, Typed(Ingredient(1)), 500.0, "g", 3500, Some(7))
  const FlourForm := OrderForm(false, None, None, None, Some(250.0), Some(10), Some(10), None, Some(3000),
                               [LineField(Some(1), Some(250.0))], [])

  lemma FlourLineCosts(orders: seq<Order>)
    ensures CostHelpers.LineCost(Store(map[1 := Flour], map[], [FirstFlour], orders), Ingredient(1), 250.0) == Some(1000)
    ensures CostHelpers.LineCost(Store(map[1 := Flour], map[], [FirstFlour, SecondFlour], orders), Ingredient(1), 250.0) == Some(1750)
  {
    assert CostHelpers.LatestPurchase([FirstFlour], Ingredient(1)) == Some(FirstFlour) by {
      assert [FirstFlour][..0] == [];
    }
    assert CostHelpers.LatestPurchase([FirstFlour, SecondFlour], Ingredient(1)) == Some(SecondFlour) by {
      assert [FirstFlour, SecondFlour][..1] == [FirstFlour];
    }
    Rounding.RoundHalfEvenOfInt(1000);
    Rounding.RoundHalfEvenOfInt(1750);
    assert 4 as real * 250.0 == 1000 as real;
    assert 7 as real * 250.0 == 1750 as real;
  }

  const FlourOrder := Order(1, None, None, None, 2, 250.0, 10, 10, 0, 3000, [OrderLine(1, 250.0, 1000)], [])

  /** The final form's single flour field survives filtering. */
  lemma FlourFormLines()
    ensures CreateOrderLines(FlourForm.ingredients) == Ok([CostHelpers.LineRequest(1, 250.0)])
    ensures CreateOrderLines(FlourForm.packaging) == Ok([])
  {
    var fields := FlourForm.ingredients;
    assert fields[..|fields| - 1] == [];
    assert CreateOrderLines(fields[..|fields| - 1]) == Ok([]);
    assert [] + [CostHelpers.LineRequest(1, 250.0)] == [CostHelpers.LineRequest(1, 250.0)];
  }

  /** Snapshotting 250 g of flour against the first purchase freezes 1000 cents. */
  lemma FlourSnapshot()
    ensures CostHelpers.SnapshotOrderCosts(Store(map[1 := Flour], map[], [FirstFlour], []), [CostHelpers.LineRequest(1, 250.0)], [])
         == CostHelpers.Snapshot([OrderLine(1, 250.0, 1000)], [])
  {
    var store := Store(map[1 := Flour], map[], [FirstFlour], []);
    FlourLineCosts([]);
    var lines := CostHelpers.SnapshotLines(store, IngredientKind, [CostHelpers.LineRequest(1, 250.0)]);
    assert lines[0] == OrderLine(1, 250.0, 1000);
    assert |CostHelpers.SnapshotLines(store, PackagingKind, [])| == 0;
  }

  lemma CreatesFlourOrder()
    ensures CreateOrder(Store(map[1 := Flour], map[], [FirstFlour], []), FlourForm, 1, 2)
         == Ok(Store(map[1 := Flour], map[], [FirstFlour], [FlourOrder]))
  {
    var reqs := [CostHelpers.LineRequest(1, 250.0)];
    FlourFormLines();
    FlourSnapshot();
    assert DistinctIds(reqs) && DistinctIds([]);
    var store := Store(map[1 := Flour], map[], [FirstFlour], []);
    var snapshot := CostHelpers.SnapshotOrderCosts(store, reqs, []);
    assert FlourOrder == Order(1, None, None, None, 2, 250.0, 10, 10, FlourForm.quantityKeptFamily.GetOr(0), 3000,
                               snapshot.ingredients, snapshot.packaging);
    assert store.orders + [FlourOrder] == [FlourOrder];
  }

  /** A concrete repricing: flour bought at 4 cents a gram, an order using
      250 g, then flour bought at 7 cents. The order keeps its 1000-cent cost
      while the same 250 g would now cost 1750 cents. */
  lemma RepricingExample()
    ensures
      var store := Store(map[1 := Flour], map[], [FirstFlour], []);
      var created := CreateOrder(store, FlourForm, 1, 2);
      && created.Ok?
      && var later := created.value.(purchases := [FirstFlour, SecondFlour]);
         && TotalCostCents(later.orders[0]) == 1000
         && CostHelpers.LineCost(later, Ingredient(1), 250.0) == Some(1750)
  {
    CreatesFlourOrder();
    var o := FlourOrder;
    assert SumLineCosts(o.ingredients) == 1000 by {
      assert o.ingredients[..0] == [];
    }
    assert TotalCostCents(o) == 1000 by {
      assert o.ingredients + o.packaging == o.ingredients;
    }
    FlourLineCosts([o]);
  }

  // ---------------------------------------------------------------------
  // cost_preview (JSON endpoint)

  /** The JSON body: absent keys are none. */
  datatype PreviewRequest = PreviewRequest(
    ingredients: Option<seq<CostHelpers.LineRequest>>,
    packaging: Option<seq<CostHelpers.LineRequest>>,
    quantity: Option<real>,
    salePriceCents: Option<int>)

  datatype PreviewResponse = PreviewResponse(
    ingredientCostCents: int,
    packagingCostCents: int,
    totalCostCents: int,
    costPerCookieCents: int,
    marginCents: int,
    marginPercentage: real)

  /** The live preview: 400 unless both line lists are present; otherwise the
      snapshot totals, the cost per cookie rounded half to even when a
      positive quantity is given (else 0), and, for a positive sale price,
      the margin in cents and as a percentage to two decimals (else both 0). */
  method CostPreviewApi(store: Store, req: PreviewRequest) returns (r: Result<PreviewResponse, OrderError>)
    ensures r.Err? <==> req.ingredients.None? || req.packaging.None?
    ensures r.Ok? ==>
      && r.value.ingredientCostCents == SumLineCosts(CostHelpers.SnapshotLines(store, IngredientKind, req.ingredients.value))
      && r.value.packagingCostCents == SumLineCosts(CostHelpers.SnapshotLines(store, PackagingKind, req.packaging.value))
      && r.value.totalCostCents == r.value.ingredientCostCents + r.value.packagingCostCents
    ensures r.Ok? && req.quantity.Some? && req.quantity.value > 0.0 ==>
      Rounding.IsRoundHalfEven(r.value.totalCostCents as real / req.quantity.value, r.value.costPerCookieCents)
    ensures r.Ok? && !(req.quantity.Some? && req.quantity.value > 0.0) ==> r.value.costPerCookieCents == 0
    ensures r.Ok? && req.salePriceCents.Some? && req.salePriceCents.value > 0 ==>
      && r.value.marginCents + r.value.totalCostCents == req.salePriceCents.value
      && -0.005 <= r.value.marginPercentage - (r.value.marginCents as real / req.salePriceCents.value as real) * 100.0 <= 0.005
    ensures r.Ok? && !(req.salePriceCents.Some? && req.salePriceCents.value > 0) ==>
      r.value.marginCents == 0 && r.value.marginPercentage == 0.0
  {
    if req.ingredients.None? || req.packaging.None? {
      return Err(BadRequest);
    }
    var costs := CostHelpers.CalculateOrderCostPreview(store, req.ingredients.value, req.packaging.value);
    var perCookie := 0;
    if req.quantity.Some? && req.quantity.value > 0.0 {
      perCookie := Rounding.RoundHalfEven(costs.totalCostCents as real / req.quantity.value);
    }
    var margin := 0;
    var marginPct := 0.0;
    if req.salePriceCents.Some? && req.salePriceCents.value > 0 {
      margin := req.salePriceCents.value - costs.totalCostCents;
      marginPct := Rounding.RoundToHundredths((margin as real / req.salePriceCents.value as real) * 100.0);
    }
    r := Ok(PreviewResponse(costs.ingredientCostCents, costs.packagingCostCents, costs.totalCostCents,
                            perCookie, margin, marginPct));
  }
}

=== FILE: purchases.dfy ===
/** `views/purchases.py`: turning a purchase form into a ledger row (dollars
    to cents, unit cost recomputed), editing a row, and the "latest costs"
    page, whose latest price ignores zero-cost purchases. */
module Purchases {
  import opened Wrappers
  import opened Models
  import Rounding
  import CostHelpers
  import Inventory

  datatype PurchaseError = MissingField | BadKind | NotFound

  /** `int(total_cost_dollars * 100) if total_cost_dollars else 0`, with a
      missing or unparsable field read as 0: the amount in cents, truncated
      toward zero. */
  function DollarsToCents(dollars: Option<real>): (cents: int)
    ensures dollars.None? || dollars.value == 0.0 ==> cents == 0
    ensures dollars.Some? && dollars.value >= 0.0 ==>
      0 <= cents && cents as real <= dollars.value * 100.0 < cents as real + 1.0
    ensures dollars.Some? && dollars.value < 0.0 ==>
      cents <= 0 && cents as real - 1.0 < dollars.value * 100.0 <= cents as real
  {
    if dollars.Some? && dollars.value != 0.0 then Rounding.Truncate(dollars.value * 100.0) else 0
  }

  /** The `item_type` field: absent, one of the two kinds, or any other
      text, which the column's `CHECK` refuses. */
  datatype KindField = NoKind | KnownKind(kind: ItemKind) | OtherKind

  /** The fields of the add/edit form as parsed by `request.form.get`: none
      when a field is missing or, for typed fields, does not parse. */
  datatype PurchaseForm = PurchaseForm(
    kind: KindField,
    itemId: Option<int>,
    date: Option<int>,
    quantity: Option<real>,
    unit: Option<string>,
    totalCostDollars: Option<real>)

  /** The row can be written: its kind passes the `CHECK` (a null kind
      does) and every non-null column is present: item id, quantity and
      unit. */
  predicate Complete(form: PurchaseForm) {
    !form.kind.OtherKind? && form.itemId.Some? && form.quantity.Some? && form.unit.Some?
  }

  /** Why an incomplete form is not written: a kind outside the `CHECK`, or
      a missing non-null column. */
  function FormError(form: PurchaseForm): (e: Option<PurchaseError>)
    ensures e.None? <==> Complete(form)
    ensures form.kind.OtherKind? ==> e == Some(BadKind)
    ensures !form.kind.OtherKind? && (form.itemId.None? || form.quantity.None? || form.unit.None?) ==> e == Some(MissingField)
  {
    match form.kind
    case OtherKind => Some(BadKind)
    case _ => if Complete(form) then None else Some(MissingField)
  }

  /** The row's item: a key of the form's kind, or, with no kind, the bare
      id under a null type. */
  function ItemOf(form: PurchaseForm): (item: PurchaseItem)
    requires Complete(form)
    ensures form.kind.KnownKind? <==> item.Typed?
    ensures item.Typed? ==> item.key.Kind() == form.kind.kind && item.key.id == form.itemId.value
    ensures item.Untyped? ==> item.id == form.itemId.value
  {
    var id := form.itemId.value;
    if form.kind.KnownKind? then Typed(KeyOf(form.kind.kind, id)) else Untyped(id)
  }

  /** The row a complete form describes, before its unit cost is computed;
      an unparsable date means today. */
  function FormFields(form: PurchaseForm, today: int, unitCost: Option<int>): (p: Purchase)
    requires Complete(form)
    ensures p.item == ItemOf(form) && p.quantity == form.quantity.value
    ensures p.date == form.date.GetOr(today) && p.unit == form.unit.value
    ensures p.totalCostCents == DollarsToCents(form.totalCostDollars)
  {
    Purchase(form.date.GetOr(today), ItemOf(form), form.quantity.value,
             form.unit.value, DollarsToCents(form.totalCostDollars), unitCost)
  }

  /** A unit cost exists exactly when quantity and total are both non-zero,
      and is then the rounded quotient. */
  predicate HasFreshUnitCost(p: Purchase) {
    && (p.unitCostCents.Some? <==> p.quantity != 0.0 && p.totalCostCents != 0)
    && (p.unitCostCents.Some? ==> Rounding.IsRoundHalfEven(p.totalCostCents as real / p.quantity, p.unitCostCents.value))
  }

  /** `add_purchase`: appends the form's row with its unit cost computed from
      scratch, so a zero total or quantity leaves it null. A form missing a
      non-null column, or naming a kind outside the `CHECK`, is rejected; a
      form with no kind is stored as an untyped row. */
  function AddPurchase(store: Store, form: PurchaseForm, today: int): (r: Result<Store, PurchaseError>)
    ensures r.Err? <==> !Complete(form)
    ensures r.Err? ==> Some(r.error) == FormError(form)
    ensures r.Ok? ==>
      && |r.value.purchases| == |store.purchases| + 1
      && r.value == store.(purchases := store.purchases + [r.value.purchases[|store.purchases|]])
      && r.value.purchases[|store.purchases|] == FormFields(form, today, r.value.purchases[|store.purchases|].unitCostCents)
      && HasFreshUnitCost(r.value.purchases[|store.purchases|])
  {
    if !Complete(form) then Err(FormError(form).value)
    else
      var p := CalculateUnitCost(FormFields(form, today, None));
      Ok(store.(purchases := store.purchases + [p]))
  }

  /** `edit_purchase` as written: overwrites the fields and then calls
      `calculate_unit_cost`, which only writes when quantity and total are
      both non-zero, so otherwise the previous unit cost survives. */
  function EditPurchaseAsWritten(store: Store, index: int, form: PurchaseForm, today: int): (r: Result<Store, PurchaseError>)
    ensures r.Err? <==> !(0 <= index < |store.purchases|) || !Complete(form)
    ensures r.Err? && 0 <= index < |store.purchases| ==> Some(r.error) == FormError(form)
    ensures r.Ok? ==>
      && |r.value.purchases| == |store.purchases|
      && r.value == store.(purchases := store.purchases[index := r.value.purchases[index]])
      && r.value.purchases[index] == FormFields(form, today, r.value.purchases[index].unitCostCents)
      && (form.quantity.value == 0.0 || DollarsToCents(form.totalCostDollars) == 0 ==>
            r.value.purchases[index].unitCostCents == store.purchases[index].unitCostCents)
      && (form.quantity.value != 0.0 && DollarsToCents(form.totalCostDollars) != 0 ==>
            HasFreshUnitCost(r.value.purchases[index]))
  {
    if !(0 <= index < |store.purchases|) then Err(NotFound)
    else if !Complete(form) then Err(FormError(form).value)
    else
      var p := CalculateUnitCost(FormFields(form, today, store.purchases[index].unitCostCents));
      Ok(store.(purchases := store.purchases[index := p]))
  }

  /** Editing a 10-piece purchase of 4.00 to a total of 0 keeps its 40-cent
      unit cost, so a row of total cost 0 still prices the item at 40 cents. */
  lemma EditKeepsStaleUnitCost()
    ensures
      var before := Purchase(1, Typed(Packaging(1)), 10.0, "pcs", 400, Some(40));
      var store := Store(map[], map[], [before], []);
      var form := PurchaseForm(KnownKind(PackagingKind), Some(1), Some(1), Some(10.0), Some("pcs"), Some(0.0));
      && EditPurchaseAsWritten(store, 0, form, 1).Ok?
      && EditPurchaseAsWritten(store, 0, form, 1).value.purchases[0].totalCostCents == 0
      && EditPurchaseAsWritten(store, 0, form, 1).value.purchases[0].unitCostCents == Some(40)
      && CostHelpers.LatestUnitCost(EditPurchaseAsWritten(store, 0, form, 1).value.purchases, Packaging(1)) == Some(40)
      && EditPurchase(store, 0, form, 1).value.purchases[0].unitCostCents.None?
  {
    var before := Purchase(1, Typed(Packaging(1)), 10.0, "pcs", 400, Some(40));
    var store := Store(map[], map[], [before], []);
    var form := PurchaseForm(KnownKind(PackagingKind), Some(1), Some(1), Some(10.0), Some("pcs"), Some(0.0));
    var edited := EditPurchaseAsWritten(store, 0, form, 1).value.purchases;
    assert edited[0].item == Typed(Packaging(1));
    assert CostHelpers.LatestPurchase(edited, Packaging(1)) == Some(edited[0]) by {
      assert edited == [edited[0]];
      assert edited[..0] == [];
    }
  }

  /** `edit_purchase` with the unit cost recomputed from scratch, as a column
      derived from total and quantity should be: the edited row is exactly
      the row adding the same form would have appended. */
  function EditPurchase(store: Store, index: int, form: PurchaseForm, today: int): (r: Result<Store, PurchaseError>)
    ensures r.Err? <==> !(0 <= index < |store.purchases|) || !Complete(form)
    ensures r.Err? && 0 <= index < |store.purchases| ==> Some(r.error) == FormError(form)
    ensures r.Ok? ==>
      && |r.value.purchases| == |store.purchases|
      && r.value == store.(purchases := store.purchases[index := r.value.purchases[index]])
      && r.value.purchases[index] == AddPurchase(store, form, today).value.purchases[|store.purchases|]
      && HasFreshUnitCost(r.value.purchases[index])
  {
    if !(0 <= index < |store.purchases|) then Err(NotFound)
    else if !Complete(form) then Err(FormError(form).value)
    else
      var p := CalculateUnitCost(FormFields(form, today, None));
      Ok(store.(purchases := store.purchases[index := p]))
  }

  /** A form without a kind stores an untyped row, which no per-kind query
      selects. Added, it changes no item's stock. Edited in, by either edit,
      it takes the old row out of every per-kind figure: each item's stock
      loses what the old row contributed, and an item whose only purchase
      it was has no latest unit cost left, so costing falls back to its
      default price. */
  lemma UntypedRowLeavesItems(store: Store, index: int, form: PurchaseForm, today: int, key: ItemKey)
    requires form.kind.NoKind? && Complete(form)
    ensures Inventory.CurrentStock(AddPurchase(store, form, today).value, key) == Inventory.CurrentStock(store, key)
    ensures 0 <= index < |store.purchases| ==>
      var s1 := EditPurchaseAsWritten(store, index, form, today).value;
      var s2 := EditPurchase(store, index, form, today).value;
      && Inventory.CurrentStock(s1, key) == Inventory.CurrentStock(store, key) - Inventory.Contribution(store.purchases[index], key)
      && Inventory.CurrentStock(s2, key) == Inventory.CurrentStock(store, key) - Inventory.Contribution(store.purchases[index], key)
      && ((forall j :: 0 <= j < |store.purchases| && j != index ==> store.purchases[j].item != Typed(key)) ==>
            && CostHelpers.LatestUnitCost(s1.purchases, key).None?
            && CostHelpers.LatestUnitCost(s2.purchases, key).None?
            && CostHelpers.ResolveUnitCost(s1, key) == CostHelpers.UsableDefault(Lookup(store, key))
            && CostHelpers.ResolveUnitCost(s2, key) == CostHelpers.UsableDefault(Lookup(store, key)))
  {
    var added := AddPurchase(store, form, today).value;
    Inventory.StockAfterPurchase(store, added.purchases[|store.purchases|], key);
    if 0 <= index < |store.purchases| {
      var s1 := EditPurchaseAsWritten(store, index, form, today).value;
      var s2 := EditPurchase(store, index, form, today).value;
      Inventory.StockAfterEdit(store, index, s1.purchases[index], key);
      Inventory.StockAfterEdit(store, index, s2.purchases[index], key);
      if forall j :: 0 <= j < |store.purchases| && j != index ==> store.purchases[j].item != Typed(key) {
        assert forall q :: q in s1.purchases ==> q.item != Typed(key);
        assert forall q :: q in s2.purchases ==> q.item != Typed(key);
      }
    }
  }

  // ---------------------------------------------------------------------
  // list_purchases

  /** The name shown beside a purchase: its item's name, or "Unknown" when
      the row's id names no item of its kind. Every row not typed as an
      ingredient, an untyped one included, is looked up among packaging. */
  function ItemName(store: Store, item: PurchaseItem): (name: string)
    ensures item.Typed? && Lookup(store, item.key).Some? ==> name == Lookup(store, item.key).value.name
    ensures item.Typed? && Lookup(store, item.key).None? ==> name == "Unknown"
    ensures item.Untyped? && item.id in store.packaging ==> name == store.packaging[item.id].name
    ensures item.Untyped? && item.id !in store.packaging ==> name == "Unknown"
  {
    var key := match item
      case Typed(k) => k
      case Untyped(id) => Packaging(id);
    match Lookup(store, key)
    case Some(found) => found.name
    case None => "Unknown"
  }

  // ---------------------------------------------------------------------
  // latest_costs

  /** The purchases passing `unit_cost_cents > 0`, in ledger order. */
  function Priced(ps: seq<Purchase>): (r: seq<Purchase>)
    ensures forall q :: q in r <==> q in ps && q.unitCostCents.Some? && q.unitCostCents.value > 0
  {
    if |ps| == 0 then []
    else
      var r := Priced(ps[..|ps| - 1]);
      var q := ps[|ps| - 1];
      assert ps == ps[..|ps| - 1] + [q];
      if q.unitCostCents.Some? && q.unitCostCents.value > 0 then r + [q] else r
  }

  datatype LatestCost = LatestCost(unitCostCents: Option<int>, lastPurchaseDate: Option<int>)

  /** One row of the latest-costs page: the unit cost and date of a latest
      positively priced purchase of the item, or, when there is none, the
      item's default price as stored (even null or 0) and no date. */
  function LatestCostEntry(ps: seq<Purchase>, key: ItemKey, item: StockItem): (r: LatestCost)
    ensures r.lastPurchaseDate.Some? <==>
      exists q :: q in ps && q.item == Typed(key) && q.unitCostCents.Some? && q.unitCostCents.value > 0
    ensures r.lastPurchaseDate.Some? ==>
      exists q :: CostHelpers.IsLatestFor(Priced(ps), key, Some(q))
        && r.unitCostCents == q.unitCostCents && r.lastPurchaseDate == Some(q.date)
    ensures r.lastPurchaseDate.Some? ==> r.unitCostCents.Some? && r.unitCostCents.value > 0
    ensures r.lastPurchaseDate.None? ==> r.unitCostCents == item.defaultPricePerUnitCents
  {
    match CostHelpers.LatestPurchase(Priced(ps), key)
    case Some(q) => LatestCost(q.unitCostCents, Some(q.date))
    case None => LatestCost(item.defaultPricePerUnitCents, None)
  }

  /** The two "latest cost" notions part ways after a stock adjustment: once
      a reconciliation is recorded later than every purchase of the item,
      costing resolves the item to a unit cost of 0, so every line of it costs
      nothing, while the latest-costs page still shows the last real price. */
  lemma AdjustmentDivergence(store: Store, key: ItemKey, actual: real, today: int, amount: real)
    requires Inventory.AdjustItem(store, key, actual, today).Ok?
    requires Inventory.AdjustItem(store, key, actual, today).value.1
    requires forall q :: q in store.purchases && q.item == Typed(key) ==> q.date < today
    ensures var s' := Inventory.AdjustItem(store, key, actual, today).value.0;
      && CostHelpers.LineCost(s', key, amount) == Some(0)
      && LatestCostEntry(s'.purchases, key, Lookup(store, key).value)
         == LatestCostEntry(store.purchases, key, Lookup(store, key).value)
  {
    var s' := Inventory.AdjustItem(store, key, actual, today).value.0;
    var rec := s'.purchases[|store.purchases|];
    assert s'.purchases == store.purchases + [rec];
    CostHelpers.AdjustmentIsLatestCost(s'.purchases, key, rec);
    CostHelpers.ZeroLatestCostCostsNothing(s', key, amount);
    assert s'.purchases[..|s'.purchases| - 1] == store.purchases;
    assert Priced(s'.purchases) == Priced(store.purchases);
  }
}

=== FILE: rankings.dfy ===
/** The top-customers and top-recipes lists of the reports index: orders
    grouped by customer (or recipe), each group's order count and revenue,
    ranked by revenue (or count), first five kept. */
module Rankings {
  import opened Wrappers
  import opened Models
  import Reports
  import Trends

  datatype Tally = Tally(key: int, orderCount: nat, revenueCents: int)

  datatype Ranking = ByRevenue | ByOrderCount

  function Score(t: Tally, rk: Ranking): int {
    match rk
    case ByRevenue => t.revenueCents
    case ByOrderCount => t.orderCount
  }

  /** The grouping key an order joins on: its customer or its recipe. */
  datatype Grouping = ByCustomer | ByRecipe

  function GroupKey(o: Order, g: Grouping): Option<int> {
    match g
    case ByCustomer => o.customerId
    case ByRecipe => o.recipeId
  }

  /** The orders of one group, in order. */
  function Group(orders: seq<Order>, g: Grouping, k: int): (r: seq<Order>)
    ensures forall o :: o in r <==> o in orders && GroupKey(o, g) == Some(k)
    ensures forall o :: multiset(r)[o] == if GroupKey(o, g) == Some(k) then multiset(orders)[o] else 0
  {
    if |orders| == 0 then []
    else
      var o := orders[|orders| - 1];
      assert orders == orders[..|orders| - 1] + [o];
      assert forall q :: q in orders <==> q in orders[..|orders| - 1] || q == o;
      Group(orders[..|orders| - 1], g, k) + (if GroupKey(o, g) == Some(k) then [o] else [])
  }

  /** The keys the inner join keeps: those of orders that have one. */
  function Keys(orders: seq<Order>, g: Grouping): (ks: seq<int>)
    ensures Trends.StrictlyIncreasing(ks)
    ensures forall k :: k in ks <==> exists o :: o in orders && GroupKey(o, g) == Some(k)
  {
    if |orders| == 0 then []
    else
      var o := orders[|orders| - 1];
      var front := Keys(orders[..|orders| - 1], g);
      assert forall q :: q in orders <==> q in orders[..|orders| - 1] || q == o;
      match GroupKey(o, g)
      case None => front
      case Some(k) => Trends.InsertSorted(front, k)
  }

  /** `GROUP BY key` with `COUNT(orders.id)` and `SUM(sale_price_total_cents)`:
      one tally per key, each counting and summing exactly its group. */
  function Tallies(orders: seq<Order>, g: Grouping): (ts: seq<Tally>)
    ensures |ts| == |Keys(orders, g)|
    ensures forall i :: 0 <= i < |ts| ==>
      && ts[i].key == Keys(orders, g)[i]
      && ts[i].orderCount == |Group(orders, g, ts[i].key)|
      && ts[i].revenueCents == Reports.SumOf(Group(orders, g, ts[i].key), Reports.Sale)
  {
    var ks := Keys(orders, g);
    seq(|ks|, i requires 0 <= i < |ks| =>
      Tally(ks[i], |Group(orders, g, ks[i])|, Reports.SumOf(Group(orders, g, ks[i]), Reports.Sale)))
  }

  predicate NonIncreasing(s: seq<Tally>, rk: Ranking) {
    forall i, j :: 0 <= i < j < |s| ==> Score(s[i], rk) >= Score(s[j], rk)
  }

  lemma ConsNonIncreasing(h: Tally, rest: seq<Tally>, rk: Ranking)
    requires NonIncreasing(rest, rk)
    requires forall x :: x in rest ==> Score(x, rk) <= Score(h, rk)
    ensures NonIncreasing([h] + rest, rk)
  {
    var r := [h] + rest;
    forall i, j | 0 <= i < j < |r|
      ensures Score(r[i], rk) >= Score(r[j], rk)
    {
      assert r[j] == rest[j - 1];
      if i > 0 {
        assert r[i] == rest[i - 1];
      }
    }
  }

  lemma {:induction false} TailScoresBelowHead(s: seq<Tally>, t: Tally, rk: Ranking, rest: seq<Tally>)
    requires NonIncreasing(s, rk) && |s| > 0 && Score(t, rk) <= Score(s[0], rk)
    requires multiset(rest) == multiset(s[1..]) + multiset{t}
    ensures forall x :: x in rest ==> Score(x, rk) <= Score(s[0], rk)
  {
    forall x | x in rest
      ensures Score(x, rk) <= Score(s[0], rk)
    {
      assert x in multiset(rest);
      if x != t {
        assert x in multiset(s[1..]);
        var j :| 0 <= j < |s[1..]| && s[1..][j] == x;
        assert s[j + 1] == x;
      }
    }
  }

  /** Places a tally after every entry scoring at least as much. */
  function InsertByScore(s: seq<Tally>, t: Tally, rk: Ranking): (r: seq<Tally>)
    requires NonIncreasing(s, rk)
    ensures NonIncreasing(r, rk)
    ensures multiset(r) == multiset(s) + multiset{t}
  {
    if |s| == 0 then [t]
    else if Score(s[0], rk) >= Score(t, rk) then
      var rest := InsertByScore(s[1..], t, rk);
      assert s == [s[0]] + s[1..];
      TailScoresBelowHead(s, t, rk, rest);
      ConsNonIncreasing(s[0], rest, rk);
      [s[0]] + rest
    else
      ConsNonIncreasing(t, s, rk);
      [t] + s
  }

  /** `ORDER BY score DESC`: the same tallies, highest score first. */
  function SortByScore(ts: seq<Tally>, rk: Ranking): (r: seq<Tally>)
    ensures NonIncreasing(r, rk)
    ensures multiset(r) == multiset(ts)
  {
    if |ts| == 0 then []
    else
      assert ts == ts[..|ts| - 1] + [ts[|ts| - 1]];
      InsertByScore(SortByScore(ts[..|ts| - 1], rk), ts[|ts| - 1], rk)
  }

  lemma PrefixOutranksRest(sorted: seq<Tally>, k: nat, rk: Ranking)
    requires NonIncreasing(sorted, rk) && k <= |sorted|
    ensures forall x, y :: x in sorted && x !in sorted[..k] && y in sorted[..k] ==> Score(x, rk) <= Score(y, rk)
  {
    forall x, y | x in sorted && x !in sorted[..k] && y in sorted[..k]
      ensures Score(x, rk) <= Score(y, rk)
    {
      var j :| 0 <= j < |sorted| && sorted[j] == x;
      var i :| 0 <= i < k && sorted[..k][i] == y;
      assert forall m :: 0 <= m < k ==> sorted[..k][m] == sorted[m];
      assert k <= j;
    }
  }

  /** The first k entries of a ranked permutation of the tallies: ranked,
      drawn from the tallies (all of them when k takes everything), and
      outranking whatever they leave out. */
  lemma TakeBest(ts: seq<Tally>, sorted: seq<Tally>, k: nat, rk: Ranking)
    requires NonIncreasing(sorted, rk) && multiset(sorted) == multiset(ts) && k <= |sorted|
    ensures NonIncreasing(sorted[..k], rk)
    ensures multiset(sorted[..k]) <= multiset(ts)
    ensures k == |sorted| ==> multiset(sorted[..k]) == multiset(ts)
    ensures forall x, y :: x in ts && x !in sorted[..k] && y in sorted[..k] ==> Score(x, rk) <= Score(y, rk)
  {
    assert sorted == sorted[..k] + sorted[k..];
    assert multiset(sorted) == multiset(sorted[..k]) + multiset(sorted[k..]);
    PrefixOutranksRest(sorted, k, rk);
    assert forall x :: x in ts ==> x in multiset(sorted);
    assert k == |sorted| ==> sorted[..k] == sorted;
  }

  /** `ORDER BY score DESC LIMIT n`: at most n tallies drawn from the input,
      highest first, and none left out scores above one kept. */
  function TopN(ts: seq<Tally>, rk: Ranking, n: nat): (r: seq<Tally>)
    ensures |r| == if |ts| < n then |ts| else n
    ensures NonIncreasing(r, rk)
    ensures multiset(r) <= multiset(ts)
    ensures |ts| <= n ==> multiset(r) == multiset(ts)
    ensures forall x, y :: x in ts && x !in r && y in r ==> Score(x, rk) <= Score(y, rk)
  {
    var sorted := SortByScore(ts, rk);
    assert |sorted| == |ts| by {
      assert |multiset(sorted)| == |multiset(ts)|;
    }
    var k := if |sorted| < n then |sorted| else n;
    TakeBest(ts, sorted, k, rk);
    sorted[..k]
  }

  const TopLimit := 5

  /** The reports index's two lists: the five best customers by revenue
      and the five recipes ordered most often. */
  function TopCustomers(orders: seq<Order>): (r: seq<Tally>)
    ensures |r| == if |Tallies(orders, ByCustomer)| < TopLimit then |Tallies(orders, ByCustomer)| else TopLimit
    ensures NonIncreasing(r, ByRevenue)
    ensures multiset(r) <= multiset(Tallies(orders, ByCustomer))
    ensures forall t :: t in r ==> t in Tallies(orders, ByCustomer)
    ensures forall x, y :: x in Tallies(orders, ByCustomer) && x !in r && y in r ==> Score(x, ByRevenue) <= Score(y, ByRevenue)
  {
    var r := TopN(Tallies(orders, ByCustomer), ByRevenue, TopLimit);
    assert forall t :: t in r ==> t in multiset(Tallies(orders, ByCustomer));
    r
  }

  function TopRecipes(orders: seq<Order>): (r: seq<Tally>)
    ensures |r| == if |Tallies(orders, ByRecipe)| < TopLimit then |Tallies(orders, ByRecipe)| else TopLimit
    ensures NonIncreasing(r, ByOrderCount)
    ensures multiset(r) <= multiset(Tallies(orders, ByRecipe))
    ensures forall t :: t in r ==> t in Tallies(orders, ByRecipe)
    ensures forall x, y :: x in Tallies(orders, ByRecipe) && x !in r && y in r ==> Score(x, ByOrderCount) <= Score(y, ByOrderCount)
  {
    var r := TopN(Tallies(orders, ByRecipe), ByOrderCount, TopLimit);
    assert forall t :: t in r ==> t in multiset(Tallies(orders, ByRecipe));
    r
  }

  // ---------------------------------------------------------------------
  // The reports index page

  /** What the index page renders: the summary figures and both lists. */
  datatype IndexPage = IndexPage(summary: Reports.Summary, topCustomers: seq<Tally>, topRecipes: seq<Tally>)

  /** The route fails when a query names a column the customer model lacks. */
  datatype PageError = NoSuchAttribute(name: string)

  /** The attributes of the customer model: its columns and its `orders`
      relationship. */
  const CustomerAttributes: set<string> := {"id", "display_name", "type", "phone", "notes", "orders"}

  /** The reports index, given the customer attribute the top-customers
      query selects. The summary queries run first; building the
      top-customers query then raises when the attribute does not exist,
      before anything is rendered. */
  function ReportsIndex(orders: seq<Order>, customerColumn: string): (r: Result<IndexPage, PageError>)
    ensures r.Err? <==> customerColumn !in CustomerAttributes
    ensures r.Err? ==> r.error == NoSuchAttribute(customerColumn)
    ensures r.Ok? ==>
      && r.value.summary.ordersCount == |orders|
      && r.value.summary.profitCents + r.value.summary.costCents == r.value.summary.revenueCents
      && |r.value.topCustomers| <= TopLimit && NonIncreasing(r.value.topCustomers, ByRevenue)
      && (forall t :: t in r.value.topCustomers ==> t in Tallies(orders, ByCustomer))
      && |r.value.topRecipes| <= TopLimit && NonIncreasing(r.value.topRecipes, ByOrderCount)
      && (forall t :: t in r.value.topRecipes ==> t in Tallies(orders, ByRecipe))
  {
    if customerColumn !in CustomerAttributes then Err(NoSuchAttribute(customerColumn))
    else Ok(IndexPage(Reports.IndexSummary(orders), TopCustomers(orders), TopRecipes(orders)))
  }

  /** As written, the query selects `Customer.name`, which the customer
      model does not define: every request fails, whatever the orders. */
  lemma IndexAsWrittenFails(orders: seq<Order>)
    ensures ReportsIndex(orders, "name") == Err(NoSuchAttribute("name"))
  {
    assert forall a :: a in CustomerAttributes ==> |a| != 4 || a[0] != 'n';
  }

  /** Selecting the `display_name` column, the page renders the index
      totals and the two top-five lists, and when there are at least five
      customers with orders the customer list is full. */
  lemma IndexWithDisplayNameRenders(orders: seq<Order>)
    ensures ReportsIndex(orders, "display_name").Ok?
    ensures var page := ReportsIndex(orders, "display_name").value;
      && page.summary == Reports.IndexSummary(orders)
      && page.topCustomers == TopCustomers(orders) && page.topRecipes == TopRecipes(orders)
      && (|Tallies(orders, ByCustomer)| >= TopLimit ==> |page.topCustomers| == TopLimit)
  {
  }
}

=== FILE: recipes.dfy ===
/** `views/recipes.py`: the ingredient lines a recipe form submits, adding
    and editing a recipe under the unique-name and one-line-per-ingredient
    constraints, and cloning with a fresh "(Copy)" name. */
module Recipes {
  import opened Wrappers
  import Text
  import Models

  datatype RecipeIngredient = RecipeIngredient(ingredientId: int, quantity: real)

  datatype Recipe = Recipe(
    name: string,
    description: Option<string>,
    cookieSize: Option<string>,
    doughWeightPerCookieG: real,
    yieldCookies: Option<int>,
    notes: Option<string>,
    ingredients: seq<RecipeIngredient>)

  /** The `recipes` table by id. */
  type Book = map<int, Recipe>

  datatype RecipeError = NotFound(id: int) | NameExists(name: string) | MissingField | BadCookieSize | DuplicateIngredient

  // ---------------------------------------------------------------------
  // ingredient_id[] / ingredient_quantity[]

  /** Entry i becomes a line: its id and quantity both parse (a missing
      quantity is an `IndexError`, skipped like a parse error), the id is
      non-zero and the quantity positive. */
  predicate Kept(ids: seq<Option<int>>, quantities: seq<Option<real>>, i: int)
    requires 0 <= i < |ids|
  {
    i < |quantities| && ids[i].Some? && quantities[i].Some? && ids[i].value != 0 && quantities[i].value > 0.0
  }

  /** What entry i of the two lists yields: its line, or nothing. */
  function Entry(ids: seq<Option<int>>, quantities: seq<Option<real>>, i: int): Option<RecipeIngredient>
    requires 0 <= i < |ids|
  {
    if Kept(ids, quantities, i) then Some(RecipeIngredient(ids[i].value, quantities[i].value)) else None
  }

  function Entries(ids: seq<Option<int>>, quantities: seq<Option<real>>): seq<Option<RecipeIngredient>> {
    seq(|ids|, i requires 0 <= i < |ids| => Entry(ids, quantities, i))
  }

  /** The lines the loop adds, in entry order: each as often as an entry
      yields it. */
  function SubmittedLines(ids: seq<Option<int>>, quantities: seq<Option<real>>): (r: seq<RecipeIngredient>)
    ensures |r| <= |ids|
    ensures forall l :: l in r <==>
      exists i :: 0 <= i < |ids| && Kept(ids, quantities, i) && l == RecipeIngredient(ids[i].value, quantities[i].value)
  {
    if |ids| == 0 then []
    else
      var n := |ids| - 1;
      var front := SubmittedLines(ids[..n], quantities);
      assert forall i :: 0 <= i < n ==> (Kept(ids[..n], quantities, i) <==> Kept(ids, quantities, i));
      if Kept(ids, quantities, n) then front + [RecipeIngredient(ids[n].value, quantities[n].value)] else front
  }

  /** Each line is submitted as often as an entry yields it. */
  lemma {:induction false} SubmittedLinesCount(ids: seq<Option<int>>, quantities: seq<Option<real>>)
    ensures forall l :: multiset(SubmittedLines(ids, quantities))[l] == multiset(Entries(ids, quantities))[Some(l)]
  {
    if |ids| > 0 {
      var n := |ids| - 1;
      SubmittedLinesCount(ids[..n], quantities);
      EntriesSnoc(ids, quantities);
      var e := Entry(ids, quantities, n);
      var tail := if e.Some? then [e.value] else [];
      assert SubmittedLines(ids, quantities) == SubmittedLines(ids[..n], quantities) + tail;
    }
  }

  lemma EntriesSnoc(ids: seq<Option<int>>, quantities: seq<Option<real>>)
    requires |ids| > 0
    ensures Entries(ids, quantities) == Entries(ids[..|ids| - 1], quantities) + [Entry(ids, quantities, |ids| - 1)]
  {
    var n := |ids| - 1;
    forall i | 0 <= i < n
      ensures Entry(ids[..n], quantities, i) == Entry(ids, quantities, i)
    {
      assert ids[..n][i] == ids[i];
    }
  }

  /** Every submitted line names an ingredient and a positive quantity. */
  lemma SubmittedLinesArePositive(ids: seq<Option<int>>, quantities: seq<Option<real>>)
    ensures forall l :: l in SubmittedLines(ids, quantities) ==> l.ingredientId != 0 && l.quantity > 0.0
  {
  }

  // ---------------------------------------------------------------------
  // Table constraints

  predicate NameTaken(book: Book, name: string) {
    exists id :: id in book && book[id].name == name
  }

  predicate UniqueNames(book: Book) {
    forall a, b :: a in book && b in book && book[a].name == book[b].name ==> a == b
  }

  /** The `(recipe_id, ingredient_id)` primary key. */
  predicate DistinctIngredients(lines: seq<RecipeIngredient>) {
    forall i, j :: 0 <= i < j < |lines| ==> lines[i].ingredientId != lines[j].ingredientId
  }

  datatype RecipeForm = RecipeForm(
    name: Option<string>,
    description: Option<string>,
    cookieSize: Option<string>,
    doughWeightPerCookieG: Option<real>,
    yieldCookies: Option<int>,
    notes: Option<string>,
    ingredientIds: seq<Option<int>>,
    quantities: seq<Option<real>>)

  /** The recipe row can be written: its non-null columns are present and
      the size satisfies the `CHECK` constraint on `cookie_size`. */
  predicate HeaderWritable(form: RecipeForm) {
    form.name.Some? && form.doughWeightPerCookieG.Some? && Models.ValidCookieSize(form.cookieSize)
  }

  function Header(form: RecipeForm): (r: Recipe)
    requires HeaderWritable(form)
    ensures r.name == form.name.value && r.description == form.description && r.cookieSize == form.cookieSize
    ensures r.doughWeightPerCookieG == form.doughWeightPerCookieG.value
    ensures r.yieldCookies == form.yieldCookies && r.notes == form.notes && r.ingredients == []
    ensures Models.ValidCookieSize(r.cookieSize)
  {
    Recipe(form.name.value, form.description, form.cookieSize, form.doughWeightPerCookieG.value,
           form.yieldCookies, form.notes, [])
  }

  function FormLines(form: RecipeForm): seq<RecipeIngredient> {
    SubmittedLines(form.ingredientIds, form.quantities)
  }

  // ---------------------------------------------------------------------
  // add_recipe

  /** `add_recipe`, as two commits: a taken name is refused before anything
      is written; otherwise the recipe row is committed first and its lines
      second, so a line set that breaks the primary key fails after the
      recipe already exists, without lines. Returns the resulting table and
      the error raised, if any. */
  function AddRecipe(book: Book, form: RecipeForm, newId: int): (r: (Book, Option<RecipeError>))
    requires newId !in book
    ensures r.1.None? <==>
      HeaderWritable(form) && !NameTaken(book, form.name.value) && DistinctIngredients(FormLines(form))
    ensures r.1.None? ==> r.0 == book[newId := Header(form).(ingredients := FormLines(form))]
    ensures HeaderWritable(form) && !NameTaken(book, form.name.value) && !DistinctIngredients(FormLines(form)) ==>
      r == (book[newId := Header(form)], Some(DuplicateIngredient))
    ensures !(HeaderWritable(form) && !NameTaken(book, form.name.value)) ==> r.0 == book
    ensures form.name.Some? && NameTaken(book, form.name.value) ==> r.1 == Some(NameExists(form.name.value))
    ensures UniqueNames(book) ==> UniqueNames(r.0)
  {
    if form.name.Some? && NameTaken(book, form.name.value) then (book, Some(NameExists(form.name.value)))
    else if !HeaderWritable(form) then
      (book, Some(if form.name.None? || form.doughWeightPerCookieG.None? then MissingField else BadCookieSize))
    else if !DistinctIngredients(FormLines(form)) then (book[newId := Header(form)], Some(DuplicateIngredient))
    else (book[newId := Header(form).(ingredients := FormLines(form))], None)
  }

  // ---------------------------------------------------------------------
  // edit_recipe

  /** `edit_recipe`: one transaction that overwrites the row and replaces
      every line with the submitted ones. A missing recipe, an unwritable
      row, a name held by another recipe or a repeated ingredient fails it,
      and nothing changes. */
  function EditRecipe(book: Book, id: int, form: RecipeForm): (r: Result<Book, RecipeError>)
    ensures r.Err? <==>
      || id !in book
      || !HeaderWritable(form)
      || (exists other :: other in book && other != id && book[other].name == form.name.value)
      || !DistinctIngredients(FormLines(form))
    ensures id !in book ==> r == Err(NotFound(id))
    ensures r.Ok? ==> r.value == book[id := Header(form).(ingredients := FormLines(form))]
    ensures r.Ok? && UniqueNames(book) ==> UniqueNames(r.value)
  {
    if id !in book then Err(NotFound(id))
    else if !HeaderWritable(form) then
      Err(if form.name.None? || form.doughWeightPerCookieG.None? then MissingField else BadCookieSize)
    else if exists other :: other in book && other != id && book[other].name == form.name.value then
      Err(NameExists(form.name.value))
    else if !DistinctIngredients(FormLines(form)) then Err(DuplicateIngredient)
    else Ok(book[id := Header(form).(ingredients := FormLines(form))])
  }

  /** The submitted lines replace the old ones outright: submitting the same
      form again changes nothing, and the outcome does not depend on the
      lines the recipe had. */
  lemma EditRecipeIdempotent(book: Book, id: int, form: RecipeForm)
    requires EditRecipe(book, id, form).Ok?
    ensures EditRecipe(EditRecipe(book, id, form).value, id, form) == EditRecipe(book, id, form)
  {
    var b := EditRecipe(book, id, form).value;
    assert b[id := Header(form).(ingredients := FormLines(form))] == b;
    assert forall other :: other in b && other != id ==> other in book && b[other] == book[other];
  }

  // ---------------------------------------------------------------------
  // clone_recipe

  const CopySuffix := " (Copy)"

  /** The k-th name `clone_recipe` tries: "N (Copy)", then "N (Copy 2)",
      "N (Copy 3)", ... */
  function CopyName(name: string, k: nat): string
    requires k >= 1
  {
    if k == 1 then name + CopySuffix else name + " (Copy " + Text.NatToString(k) + ")"
  }

  lemma CopyNameInjective(name: string, a: nat, b: nat)
    requires a >= 1 && b >= 1
    requires CopyName(name, a) == CopyName(name, b)
    ensures a == b
  {
    if a != 1 && b != 1 {
      var sa, sb := Text.NatToString(a), Text.NatToString(b);
      var lead := name + " (Copy ";
      assert CopyName(name, a) == lead + sa + ")";
      assert CopyName(name, b) == lead + sb + ")";
      assert |sa| == |sb|;
      assert sa == CopyName(name, a)[|lead|..|lead| + |sa|];
      assert sb == CopyName(name, b)[|lead|..|lead| + |sb|];
      Text.NatToStringInjective(a, b);
    }
  }

  lemma {:induction false} SubsetCardinality(a: set<string>, b: set<string>)
    requires a <= b
    ensures |a| <= |b|
    decreases |a|
  {
    if a != {} {
      var x :| x in a;
      SubsetCardinality(a - {x}, b - {x});
    }
  }

  function Names(book: Book): set<string> {
    set id | id in book :: book[id].name
  }

  /** The clone's name: the first of "N (Copy)", "N (Copy 2)", ... that no
      recipe holds. The search always ends, since each name tried is held
      by a different recipe. */
  method CloneName(name: string, taken: set<string>) returns (r: string, counter: nat)
    ensures counter >= 1 && r == CopyName(name, counter)
    ensures r !in taken
    ensures forall j :: 1 <= j < counter ==> CopyName(name, j) in taken
  {
    counter := 1;
    r := CopyName(name, 1);
    ghost var tried: set<string> := {};
    while r in taken
      invariant counter >= 1 && r == CopyName(name, counter)
      invariant forall j :: 1 <= j < counter ==> CopyName(name, j) in taken
      invariant forall s :: s in tried ==> exists j :: 1 <= j < counter && s == CopyName(name, j)
      invariant tried <= taken && |tried| == counter - 1
      decreases |taken| - |tried|
    {
      FreshCandidate(name, tried, counter);
      assert r == CopyName(name, counter);
      tried := tried + {r};
      SubsetCardinality(tried, taken);
      counter := counter + 1;
      r := CopyName(name, counter);
    }
  }

  /** The next candidate differs from every name already tried. */
  lemma FreshCandidate(name: string, tried: set<string>, counter: nat)
    requires counter >= 1
    requires forall s :: s in tried ==> exists j :: 1 <= j < counter && s == CopyName(name, j)
    ensures CopyName(name, counter) !in tried
  {
    if CopyName(name, counter) in tried {
      var j :| 1 <= j < counter && CopyName(name, counter) == CopyName(name, j);
      CopyNameInjective(name, j, counter);
    }
  }

  /** `clone_recipe`: a new recipe with every column and every ingredient
      line of the original under a fresh name. */
  method CloneRecipe(book: Book, id: int, newId: int) returns (r: Result<Book, RecipeError>)
    requires newId !in book
    ensures r.Err? <==> id !in book
    ensures r.Ok? ==>
      && newId in r.value && r.value == book[newId := r.value[newId]]
      && r.value[newId] == book[id].(name := r.value[newId].name)
      && r.value[newId].name !in Names(book)
    ensures r.Ok? ==> exists k :: k >= 1 && r.value[newId].name == CopyName(book[id].name, k)
                                  && forall j :: 1 <= j < k ==> CopyName(book[id].name, j) in Names(book)
    ensures r.Ok? && UniqueNames(book) ==> UniqueNames(r.value)
  {
    if id !in book {
      return Err(NotFound(id));
    }
    var original := book[id];
    var name, counter := CloneName(original.name, Names(book));
    assert forall other :: other in book ==> book[other].name in Names(book);
    r := Ok(book[newId := original.(name := name)]);
  }
}

=== FILE: reports.dfy ===
/** `views/reports.py`: the summary totals of the reports index, the
    per-order loop of the profit report, and the cost sums of the CSV export
    and the trend page, which join both line tables at once. */
module Reports {
  import opened Wrappers
  import opened Models

  /** A per-order measure, summed over a run of orders. */
  function SumOf(orders: seq<Order>, f: Order -> int): int {
    if |orders| == 0 then 0 else SumOf(orders[..|orders| - 1], f) + f(orders[|orders| - 1])
  }

  lemma {:induction false} SumOfAppend(a: seq<Order>, b: seq<Order>, f: Order -> int)
    ensures SumOf(a + b, f) == SumOf(a, f) + SumOf(b, f)
    decreases |b|
  {
    if |b| == 0 {
      assert a + b == a;
    } else {
      assert (a + b)[..|a + b| - 1] == a + b[..|b| - 1];
      SumOfAppend(a, b[..|b| - 1], f);
    }
  }

  function Sale(o: Order): int { o.salePriceTotalCents }
  function Baked(o: Order): int { o.quantityBaked }
  function IngredientCost(o: Order): int { IngredientCostCents(o) }
  function PackagingCost(o: Order): int { PackagingCostCents(o) }

  /** The `order_ingredients` (or `order_packaging`) table restricted to the
      given orders: their lines, order after order. */
  function AllLines(orders: seq<Order>, kind: ItemKind): seq<OrderLine> {
    if |orders| == 0 then [] else AllLines(orders[..|orders| - 1], kind) + LinesOf(orders[|orders| - 1], kind)
  }

  /** Summing the whole line table gives the sum of the orders' own costs. */
  lemma {:induction false} AllLinesCost(orders: seq<Order>, kind: ItemKind)
    ensures SumLineCosts(AllLines(orders, kind)) ==
      SumOf(orders, if kind == IngredientKind then IngredientCost else PackagingCost)
  {
    if |orders| > 0 {
      var front := orders[..|orders| - 1];
      AllLinesCost(front, kind);
      SumLineCostsAppend(AllLines(front, kind), LinesOf(orders[|orders| - 1], kind));
    }
  }

  /** A margin in percent: 0 unless the revenue is positive. */
  function Margin(profit: int, revenue: int): (m: real)
    ensures revenue <= 0 ==> m == 0.0
    ensures revenue > 0 ==> m * revenue as real == profit as real * 100.0
  {
    if revenue > 0 then (profit as real / revenue as real) * 100.0 else 0.0
  }

  /** For an order with a non-negative price the report's margin is the
      order's own `profit_margin`. */
  lemma MarginAgreesWithOrder(o: Order)
    requires o.salePriceTotalCents >= 0
    ensures Margin(ProfitCents(o), o.salePriceTotalCents) == ProfitMargin(o)
  {
  }

  // ---------------------------------------------------------------------
  // index

  datatype Summary = Summary(
    ordersCount: nat,
    revenueCents: int,
    costCents: int,
    profitCents: int,
    margin: real,
    cookies: int)

  /** The reports index: revenue and cookies over all orders, and the cost
      as the plain sums of the two line tables, each a separate query. */
  function IndexSummary(orders: seq<Order>): (s: Summary)
    ensures s.ordersCount == |orders|
    ensures s.revenueCents == SumOf(orders, Sale) && s.cookies == SumOf(orders, Baked)
    ensures s.costCents == SumOf(orders, IngredientCost) + SumOf(orders, PackagingCost)
    ensures s.profitCents + s.costCents == s.revenueCents
    ensures s.margin == Margin(s.profitCents, s.revenueCents)
  {
    AllLinesCost(orders, IngredientKind);
    AllLinesCost(orders, PackagingKind);
    var cost := SumLineCosts(AllLines(orders, IngredientKind)) + SumLineCosts(AllLines(orders, PackagingKind));
    var revenue := SumOf(orders, Sale);
    Summary(|orders|, revenue, cost, revenue - cost, Margin(revenue - cost, revenue), SumOf(orders, Baked))
  }

  // ---------------------------------------------------------------------
  // profit_report

  /** The orders of a report window: every order when no start is set,
      otherwise those dated from the start to the end inclusive. */
  predicate InReport(o: Order, start: Option<int>, end: int) {
    start.None? || start.value <= o.date <= end
  }

  function SelectOrders(orders: seq<Order>, start: Option<int>, end: int): (r: seq<Order>)
    ensures forall o :: o in r <==> o in orders && InReport(o, start, end)
    ensures forall o :: multiset(r)[o] == if InReport(o, start, end) then multiset(orders)[o] else 0
    ensures start.None? ==> r == orders
    ensures |r| <= |orders|
  {
    if |orders| == 0 then []
    else
      var o := orders[|orders| - 1];
      var front := SelectOrders(orders[..|orders| - 1], start, end);
      assert orders == orders[..|orders| - 1] + [o];
      if InReport(o, start, end) then front + [o] else front
  }

  datatype ProfitRow = ProfitRow(
    id: int,
    quantity: int,
    revenueCents: int,
    ingredientCostCents: int,
    packagingCostCents: int,
    totalCostCents: int,
    profitCents: int,
    margin: real)

  /** One report row, from the order's own line sums (an order without
      lines sums to 0). Its figures are the order's cost and profit. */
  function RowOf(o: Order): (row: ProfitRow)
    ensures row.id == o.id && row.quantity == o.quantityBaked && row.revenueCents == o.salePriceTotalCents
    ensures row.ingredientCostCents == IngredientCostCents(o) && row.packagingCostCents == PackagingCostCents(o)
    ensures row.totalCostCents == TotalCostCents(o)
    ensures row.profitCents == ProfitCents(o)
    ensures row.margin == Margin(row.profitCents, row.revenueCents)
  {
    var ingredients := SumLineCosts(o.ingredients);
    var packaging := SumLineCosts(o.packaging);
    var profit := o.salePriceTotalCents - (ingredients + packaging);
    ProfitRow(o.id, o.quantityBaked, o.salePriceTotalCents, ingredients, packaging, ingredients + packaging,
              profit, Margin(profit, o.salePriceTotalCents))
  }

  datatype ProfitReport = ProfitReport(
    rows: seq<ProfitRow>,
    revenueCents: int,
    ingredientCostCents: int,
    packagingCostCents: int,
    costCents: int,
    profitCents: int,
    margin: real)

  function SumRows(rows: seq<ProfitRow>, f: ProfitRow -> int): int {
    if |rows| == 0 then 0 else SumRows(rows[..|rows| - 1], f) + f(rows[|rows| - 1])
  }

  function RowRevenue(r: ProfitRow): int { r.revenueCents }
  function RowIngredientCost(r: ProfitRow): int { r.ingredientCostCents }
  function RowPackagingCost(r: ProfitRow): int { r.packagingCostCents }

  /** One more order and one more row extend each running total by that
      order's and that row's figure. */
  lemma SumsStep(orders: seq<Order>, i: int, rows: seq<ProfitRow>, row: ProfitRow)
    requires 0 <= i < |orders|
    ensures SumOf(orders[..i + 1], Sale) == SumOf(orders[..i], Sale) + Sale(orders[i])
    ensures SumOf(orders[..i + 1], IngredientCost) == SumOf(orders[..i], IngredientCost) + IngredientCost(orders[i])
    ensures SumOf(orders[..i + 1], PackagingCost) == SumOf(orders[..i], PackagingCost) + PackagingCost(orders[i])
    ensures SumRows(rows + [row], RowRevenue) == SumRows(rows, RowRevenue) + row.revenueCents
    ensures SumRows(rows + [row], RowIngredientCost) == SumRows(rows, RowIngredientCost) + row.ingredientCostCents
    ensures SumRows(rows + [row], RowPackagingCost) == SumRows(rows, RowPackagingCost) + row.packagingCostCents
  {
    assert orders[..i + 1][..i] == orders[..i];
    assert (rows + [row])[..|rows|] == rows;
  }

  /** The report's loop: one row per order, and running totals that end
      as the sums of the rows. Over all orders the totals are those of the
      index page, which sums the line tables directly. */
  method ProfitReportOf(orders: seq<Order>) returns (rep: ProfitReport)
    ensures |rep.rows| == |orders|
    ensures forall i :: 0 <= i < |orders| ==> rep.rows[i] == RowOf(orders[i])
    ensures rep.revenueCents == SumRows(rep.rows, RowRevenue)
    ensures rep.ingredientCostCents == SumRows(rep.rows, RowIngredientCost)
    ensures rep.packagingCostCents == SumRows(rep.rows, RowPackagingCost)
    ensures rep.costCents == rep.ingredientCostCents + rep.packagingCostCents
    ensures rep.profitCents == rep.revenueCents - rep.costCents
    ensures rep.margin == Margin(rep.profitCents, rep.revenueCents)
    ensures var s := IndexSummary(orders);
      rep.revenueCents == s.revenueCents && rep.costCents == s.costCents &&
      rep.profitCents == s.profitCents && rep.margin == s.margin
  {
    var rows: seq<ProfitRow> := [];
    var revenue, ingredients, packaging := 0, 0, 0;
    for i := 0 to |orders|
      invariant |rows| == i
      invariant forall j :: 0 <= j < i ==> rows[j] == RowOf(orders[j])
      invariant revenue == SumRows(rows, RowRevenue) == SumOf(orders[..i], Sale)
      invariant ingredients == SumRows(rows, RowIngredientCost) == SumOf(orders[..i], IngredientCost)
      invariant packaging == SumRows(rows, RowPackagingCost) == SumOf(orders[..i], PackagingCost)
    {
      var row := RowOf(orders[i]);
      SumsStep(orders, i, rows, row);
      rows := rows + [row];
      revenue := revenue + row.revenueCents;
      ingredients := ingredients + row.ingredientCostCents;
      packaging := packaging + row.packagingCostCents;
    }
    assert orders[..|orders|] == orders;
    var cost := ingredients + packaging;
    rep := ProfitReport(rows, revenue, ingredients, packaging, cost, revenue - cost, Margin(revenue - cost, revenue));
  }

  // ---------------------------------------------------------------------
  // export_profit_csv / trend_report: both line tables outer-joined at once

  /** One side of an outer join: every line, or a single all-null row when
      the order has none. */
  function OuterSide(lines: seq<OrderLine>): (r: seq<Option<OrderLine>>)
    ensures |r| == if |lines| == 0 then 1 else |lines|
    ensures |lines| == 0 ==> r == [None]
    ensures |lines| > 0 ==> forall i :: 0 <= i < |lines| ==> r[i] == Some(lines[i])
  {
    if |lines| == 0 then [None] else seq(|lines|, i requires 0 <= i < |lines| => Some(lines[i]))
  }

  /** One left row paired with every right row, in order. */
  function Fan(x: Option<OrderLine>, right: seq<Option<OrderLine>>): seq<(Option<OrderLine>, Option<OrderLine>)> {
    seq(|right|, j requires 0 <= j < |right| => (x, right[j]))
  }

  /** The rows of `orders LEFT JOIN order_ingredients LEFT JOIN
      order_packaging` for one order: each ingredient row paired with each
      packaging row. */
  function JoinRows(left: seq<Option<OrderLine>>, right: seq<Option<OrderLine>>): (r: seq<(Option<OrderLine>, Option<OrderLine>)>)
    ensures |r| == |left| * |right|
    ensures forall p :: p in r <==> p.0 in left && p.1 in right
  {
    if |left| == 0 then []
    else
      var front := JoinRows(left[..|left| - 1], right);
      var x := left[|left| - 1];
      var fan := Fan(x, right);
      assert |front| + |right| == |left| * |right| by {
        assert |left| * |right| == (|left| - 1) * |right| + |right|;
      }
      assert forall p :: p in fan <==> p.0 == x && p.1 in right by {
        forall p: (Option<OrderLine>, Option<OrderLine>) | p.0 == x && p.1 in right
          ensures p in fan
        {
          var j :| 0 <= j < |right| && right[j] == p.1;
          assert fan[j] == p;
        }
      }
      assert forall q :: q in left <==> q in left[..|left| - 1] || q == x by {
        assert left == left[..|left| - 1] + [x];
      }
      front + fan
  }

  /** Every pair of the two sides occurs as often as the product of the
      times each side holds its half. */
  lemma {:induction false} JoinRowsCount(left: seq<Option<OrderLine>>, right: seq<Option<OrderLine>>, a: Option<OrderLine>, b: Option<OrderLine>)
    ensures multiset(JoinRows(left, right))[(a, b)] == multiset(left)[a] * multiset(right)[b]
    decreases |left|
  {
    if |left| > 0 {
      var n := |left| - 1;
      JoinRowsSnoc(left, right);
      JoinRowsCount(left[..n], right, a, b);
      FanCount(left[n], right, a, b);
      var m := multiset(left[..n])[a];
      var d := if a == left[n] then 1 else 0;
      CountSnoc(left, a);
      MulDistributes(m, d, multiset(right)[b]);
    }
  }

  lemma CountSnoc<T>(s: seq<T>, x: T)
    requires |s| > 0
    ensures multiset(s)[x] == multiset(s[..|s| - 1])[x] + (if x == s[|s| - 1] then 1 else 0)
  {
    assert s == s[..|s| - 1] + [s[|s| - 1]];
  }

  lemma JoinRowsSnoc(left: seq<Option<OrderLine>>, right: seq<Option<OrderLine>>)
    requires |left| > 0
    ensures multiset(JoinRows(left, right)) == multiset(JoinRows(left[..|left| - 1], right)) + multiset(Fan(left[|left| - 1], right))
  {
    assert JoinRows(left, right) == JoinRows(left[..|left| - 1], right) + Fan(left[|left| - 1], right);
  }

  lemma {:induction false} FanCount(x: Option<OrderLine>, right: seq<Option<OrderLine>>, a: Option<OrderLine>, b: Option<OrderLine>)
    ensures multiset(Fan(x, right))[(a, b)] == if a == x then multiset(right)[b] else 0
    decreases |right|
  {
    if |right| > 0 {
      var n := |right| - 1;
      FanCount(x, right[..n], a, b);
      assert Fan(x, right) == Fan(x, right[..n]) + [(x, right[n])];
      assert right == right[..n] + [right[n]];
    }
  }

  function CostOf(l: Option<OrderLine>): int {
    if l.Some? then l.value.costAtTimeOfUseCents else 0
  }

  /** `SUM(...)` of one column over the joined rows; nulls add nothing and an
      all-null sum is read as 0. */
  function SumColumn(rows: seq<(Option<OrderLine>, Option<OrderLine>)>, leftColumn: bool): int {
    if |rows| == 0 then 0
    else
      var row := rows[|rows| - 1];
      SumColumn(rows[..|rows| - 1], leftColumn) + CostOf(if leftColumn then row.0 else row.1)
  }

  function SumSide(side: seq<Option<OrderLine>>): int {
    if |side| == 0 then 0 else SumSide(side[..|side| - 1]) + CostOf(side[|side| - 1])
  }

  lemma {:induction false} SumColumnAppend(a: seq<(Option<OrderLine>, Option<OrderLine>)>, b: seq<(Option<OrderLine>, Option<OrderLine>)>, leftColumn: bool)
    ensures SumColumn(a + b, leftColumn) == SumColumn(a, leftColumn) + SumColumn(b, leftColumn)
    decreases |b|
  {
    if |b| == 0 {
      assert a + b == a;
    } else {
      assert (a + b)[..|a + b| - 1] == a + b[..|b| - 1];
      SumColumnAppend(a, b[..|b| - 1], leftColumn);
    }
  }

  /** Pairing one left row with every right row: the left column repeats
      its cost, the right column sums the right side. */
  lemma {:induction false} SumFan(l: Option<OrderLine>, right: seq<Option<OrderLine>>)
    ensures SumColumn(Fan(l, right), true) == CostOf(l) * |right|
    ensures SumColumn(Fan(l, right), false) == SumSide(right)
  {
    var fan := Fan(l, right);
    if |right| > 0 {
      var front := right[..|right| - 1];
      assert fan[..|fan| - 1] == Fan(l, front);
      SumFan(l, front);
    }
  }

  /** Each ingredient cost is counted once per packaging row and each
      packaging cost once per ingredient row. */
  lemma {:induction false} JoinMultiplies(left: seq<Option<OrderLine>>, right: seq<Option<OrderLine>>)
    ensures SumColumn(JoinRows(left, right), true) == SumSide(left) * |right|
    ensures SumColumn(JoinRows(left, right), false) == |left| * SumSide(right)
  {
    if |left| > 0 {
      var front, l := left[..|left| - 1], left[|left| - 1];
      var fan := Fan(l, right);
      assert JoinRows(left, right) == JoinRows(front, right) + fan;
      JoinMultiplies(front, right);
      SumColumnAppend(JoinRows(front, right), fan, true);
      SumColumnAppend(JoinRows(front, right), fan, false);
      SumFan(l, right);
      assert SumSide(left) == SumSide(front) + CostOf(l);
      MulDistributes(SumSide(front), CostOf(l), |right|);
      MulDistributes(|front|, 1, SumSide(right));
    }
  }

  lemma MulDistributes(a: int, b: int, n: int)
    ensures (a + b) * n == a * n + b * n
  {
  }

  lemma {:induction false} SumOuterSide(lines: seq<OrderLine>)
    ensures SumSide(OuterSide(lines)) == SumLineCosts(lines)
  {
    if |lines| > 0 {
      var front := lines[..|lines| - 1];
      SumOuterSide(front);
      if |front| == 0 {
        assert SumSide(OuterSide(front)) == 0;
        assert OuterSide(lines)[..0] == [];
      } else {
        assert OuterSide(lines)[..|lines| - 1] == OuterSide(front);
      }
    }
  }

  /** The ingredient and packaging cost the CSV export reports for an order,
      as written: grouped sums over the double outer join. Each side comes
      out multiplied by the other side's number of rows. */
  function JoinedOrderCosts(o: Order): (r: (int, int))
    ensures r.0 == IngredientCostCents(o) * (if |o.packaging| == 0 then 1 else |o.packaging|)
    ensures r.1 == PackagingCostCents(o) * (if |o.ingredients| == 0 then 1 else |o.ingredients|)
  {
    var rows := JoinRows(OuterSide(o.ingredients), OuterSide(o.packaging));
    JoinMultiplies(OuterSide(o.ingredients), OuterSide(o.packaging));
    SumOuterSide(o.ingredients);
    SumOuterSide(o.packaging);
    (SumColumn(rows, true), SumColumn(rows, false))
  }

  /** The joined sums are the order's costs exactly when no side is
      multiplied: at most one packaging line or no ingredient cost, and at
      most one ingredient line or no packaging cost. */
  lemma JoinedCostsAgreeIff(o: Order)
    ensures JoinedOrderCosts(o) == (IngredientCostCents(o), PackagingCostCents(o)) <==>
      (|o.packaging| <= 1 || IngredientCostCents(o) == 0) && (|o.ingredients| <= 1 || PackagingCostCents(o) == 0)
  {
    var ing, pkg := IngredientCostCents(o), PackagingCostCents(o);
    var m := if |o.packaging| == 0 then 1 else |o.packaging|;
    var n := if |o.ingredients| == 0 then 1 else |o.ingredients|;
    assert ing * m - ing == ing * (m - 1);
    assert pkg * n - pkg == pkg * (n - 1);
    if ing != 0 && m != 1 {
      assert ing * (m - 1) != 0;
    }
    if pkg != 0 && n != 1 {
      assert pkg * (n - 1) != 0;
    }
  }

  /** Two ingredient lines (100 and 200 cents) and two packaging lines (10
      and 20 cents): the export reports 600 and 60 where the order cost 300
      and 30. */
  lemma JoinOvercounts()
    ensures
      var o := Order(1, None, None, None, 1, 100.0, 10, 10, 0, 1000,
                     [OrderLine(1, 50.0, 100), OrderLine(2, 50.0, 200)],
                     [OrderLine(1, 1.0, 10), OrderLine(2, 1.0, 20)]);
      && JoinedOrderCosts(o) == (600, 60)
      && RowOf(o).ingredientCostCents == 300 && RowOf(o).packagingCostCents == 30
  {
    var ing := [OrderLine(1, 50.0, 100), OrderLine(2, 50.0, 200)];
    var pkg := [OrderLine(1, 1.0, 10), OrderLine(2, 1.0, 20)];
    assert ing[..1] == [ing[0]] && ing[..1][..0] == [];
    assert pkg[..1] == [pkg[0]] && pkg[..1][..0] == [];
    assert SumLineCosts(ing) == 300;
    assert SumLineCosts(pkg) == 30;
  }
}

=== FILE: rounding.dfy ===
/** Python's numeric conversions on exact reals: `round(x)` (ties to even),
    `round(x, 2)` and `int(x)` (truncation toward zero). */
module Rounding {

  /** `n` is the integer Python's `round(x)` yields: no further than one half
      from `x`, and even when `x` lies exactly between two integers. */
  predicate IsRoundHalfEven(x: real, n: int) {
    && -0.5 <= n as real - x <= 0.5
    && ((n as real - x == 0.5 || x - n as real == 0.5) ==> n % 2 == 0)
  }

  function RoundHalfEven(x: real): (r: int)
    ensures IsRoundHalfEven(x, r)
  {
    var f := x.Floor;
    var d := x - f as real;
    if d < 0.5 then f
    else if d > 0.5 then f + 1
    else if f % 2 == 0 then f
    else f + 1
  }

  /** The characterisation pins the rounding down: at most one integer meets it. */
  lemma RoundHalfEvenUnique(x: real, n: int)
    requires IsRoundHalfEven(x, n)
    ensures n == RoundHalfEven(x)
  {
  }

  /** Rounding a whole number gives it back. */
  lemma RoundHalfEvenOfInt(n: int)
    ensures RoundHalfEven(n as real) == n
  {
    RoundHalfEvenUnique(n as real, n);
  }

  /** Rounding doubles at most one unit apart from doubling the rounding. */
  lemma RoundHalfEvenOfDouble(x: real)
    ensures -1 <= RoundHalfEven(2.0 * x) - 2 * RoundHalfEven(x) <= 1
  {
    var a := RoundHalfEven(2.0 * x);
    var b := RoundHalfEven(x);
    assert -1.5 <= (a - 2 * b) as real <= 1.5;
  }

  /** Python's `round(x, 2)`: the nearest hundredth, ties to an even hundredth. */
  function RoundToHundredths(x: real): (r: real)
    ensures -0.005 <= r - x <= 0.005
    ensures (r * 100.0).Floor as real == r * 100.0
  {
    var y := x * 100.0;
    var n := RoundHalfEven(y);
    var r := n as real / 100.0;
    assert r * 100.0 == n as real;
    assert r - x == (n as real - y) / 100.0;
    r
  }

  /** Python's `int(x)` on a float: drop the fractional part, toward zero. */
  function Truncate(x: real): (r: int)
    ensures 0.0 <= x ==> 0 <= r && r as real <= x < r as real + 1.0
    ensures x < 0.0 ==> r <= 0 && r as real - 1.0 < x <= r as real
  {
    if x >= 0.0 then x.Floor else -((-x).Floor)
  }
}

=== FILE: text.dfy ===
/** String helpers the views rely on: ASCII lower-casing (`str.lower`),
    the last occurrence of a character (`str.rsplit(c, 1)`) and decimal
    rendering of a counter (`f"{n}"`). */
module Text {
  import opened Wrappers

  function LowerChar(c: char): (d: char)
    ensures 'A' <= c <= 'Z' ==> d as int == c as int + 32
    ensures !('A' <= c <= 'Z') ==> d == c
  {
    if 'A' <= c <= 'Z' then (c as int + 32) as char else c
  }

  function Lower(s: string): (r: string)
    ensures |r| == |s|
    ensures forall i :: 0 <= i < |s| ==> r[i] == LowerChar(s[i])
  {
    if |s| == 0 then [] else [LowerChar(s[0])] + Lower(s[1..])
  }

  /** Index of the last `c` in `s`, if any. */
  function LastIndexOf(s: string, c: char): (r: Option<nat>)
    ensures r.None? <==> c !in s
    ensures r.Some? ==> r.value < |s| && s[r.value] == c
    ensures r.Some? ==> forall j :: r.value < j < |s| ==> s[j] != c
  {
    if |s| == 0 then None
    else if s[|s| - 1] == c then Some(|s| - 1)
    else LastIndexOf(s[..|s| - 1], c)
  }

  function DigitChar(d: nat): char
    requires d < 10
  {
    ('0' as int + d) as char
  }

  /** The number a string of decimal digits denotes, most significant first. */
  function ParseDigits(s: string): int {
    if |s| == 0 then 0 else ParseDigits(s[..|s| - 1]) * 10 + (s[|s| - 1] as int - '0' as int)
  }

  /** `str(n)` for a natural number: decimal digits, most significant first,
      with no leading zero. */
  function NatToString(n: nat): (r: string)
    ensures |r| >= 1
    ensures n < 10 <==> |r| == 1
    ensures forall i :: 0 <= i < |r| ==> '0' <= r[i] <= '9'
    ensures r[0] == '0' <==> n == 0
    decreases n
  {
    if n < 10 then [DigitChar(n)]
    else NatToString(n / 10) + [DigitChar(n % 10)]
  }

  /** Reading the digits back gives the number. */
  lemma {:induction false} NatToStringRoundTrip(n: nat)
    ensures ParseDigits(NatToString(n)) == n
    decreases n
  {
    var s := NatToString(n);
    if n < 10 {
      assert s[..0] == [];
    } else {
      assert s[..|s| - 1] == NatToString(n / 10);
      NatToStringRoundTrip(n / 10);
    }
  }

  /** Different numbers render differently. */
  lemma {:induction false} NatToStringInjective(a: nat, b: nat)
    requires NatToString(a) == NatToString(b)
    ensures a == b
    decreases a
  {
    var s := NatToString(a);
    if a >= 10 && b >= 10 {
      assert s[|s| - 1] == DigitChar(a % 10) == DigitChar(b % 10);
      assert NatToString(a / 10) == s[..|s| - 1] == NatToString(b / 10);
      NatToStringInjective(a / 10, b / 10);
    }
  }
}

=== FILE: trends.dfy ===
/** `api_trend_data` in `views/reports.py`: orders of a date window grouped
    into periods, one chart point per period in ascending order, with the
    cost of each period looked up in per-table dictionaries that default to
    0. The calendar key (`strftime` of the order date) is a parameter. */
module Trends {
  import opened Models
  import Reports

  predicate StrictlyIncreasing(s: seq<int>) {
    forall i, j :: 0 <= i < j < |s| ==> s[i] < s[j]
  }

  /** Adds a key to a sorted run of distinct keys, keeping it sorted. */
  function InsertSorted(s: seq<int>, x: int): (r: seq<int>)
    requires StrictlyIncreasing(s)
    ensures StrictlyIncreasing(r)
    ensures forall y :: y in r <==> y in s || y == x
  {
    if |s| == 0 then [x]
    else if x < s[0] then [x] + s
    else if x == s[0] then s
    else
      var rest := InsertSorted(s[1..], x);
      var r := [s[0]] + rest;
      forall j | 1 <= j < |r|
        ensures r[j] > s[0]
      {
        assert r[j] == rest[j - 1] && rest[j - 1] in rest;
      }
      r
  }

  /** The window's orders: dated from the start to the end inclusive. */
  function InWindow(orders: seq<Order>, start: int, end: int): (r: seq<Order>)
    ensures forall o :: o in r <==> o in orders && start <= o.date <= end
  {
    if |orders| == 0 then []
    else
      var o := orders[|orders| - 1];
      assert forall q :: q in orders <==> q in orders[..|orders| - 1] || q == o;
      InWindow(orders[..|orders| - 1], start, end) + (if start <= o.date <= end then [o] else [])
  }

  /** The window holds each order dated inside it as often as the data
      does, and no other order. */
  lemma {:induction false} InWindowCounts(orders: seq<Order>, start: int, end: int)
    ensures forall o :: multiset(InWindow(orders, start, end))[o] == if start <= o.date <= end then multiset(orders)[o] else 0
  {
    if |orders| > 0 {
      var o := orders[|orders| - 1];
      InWindowCounts(orders[..|orders| - 1], start, end);
      assert orders == orders[..|orders| - 1] + [o];
    }
  }

  /** `GROUP BY period ORDER BY period`: the distinct periods that hold an
      order, ascending. */
  function PeriodsOf(orders: seq<Order>, periodOf: int -> int): (ps: seq<int>)
    ensures StrictlyIncreasing(ps)
    ensures forall p :: p in ps <==> exists o :: o in orders && periodOf(o.date) == p
  {
    if |orders| == 0 then []
    else
      var o := orders[|orders| - 1];
      assert forall q :: q in orders <==> q in orders[..|orders| - 1] || q == o;
      InsertSorted(PeriodsOf(orders[..|orders| - 1], periodOf), periodOf(o.date))
  }

  /** The orders of one period, in order. */
  function Bucket(orders: seq<Order>, periodOf: int -> int, p: int): (b: seq<Order>)
    ensures forall o :: o in b <==> o in orders && periodOf(o.date) == p
  {
    if |orders| == 0 then []
    else
      var o := orders[|orders| - 1];
      assert forall q :: q in orders <==> q in orders[..|orders| - 1] || q == o;
      Bucket(orders[..|orders| - 1], periodOf, p) + (if periodOf(o.date) == p then [o] else [])
  }

  /** A bucket holds each order of its period as often as the window does,
      and no other order. */
  lemma {:induction false} BucketCounts(orders: seq<Order>, periodOf: int -> int, p: int)
    ensures forall o :: multiset(Bucket(orders, periodOf, p))[o] == if periodOf(o.date) == p then multiset(orders)[o] else 0
  {
    if |orders| > 0 {
      var o := orders[|orders| - 1];
      BucketCounts(orders[..|orders| - 1], periodOf, p);
      assert orders == orders[..|orders| - 1] + [o];
    }
  }

  function OrderCost(kind: ItemKind): Order -> int {
    if kind == IngredientKind then Reports.IngredientCost else Reports.PackagingCost
  }

  /** `{period: cost}` from `SELECT ... FROM order_<kind> JOIN orders GROUP
      BY period`: only periods with at least one line get a key, and each
      value sums that period's lines. */
  function CostByPeriod(orders: seq<Order>, periodOf: int -> int, kind: ItemKind): (m: map<int, int>)
    ensures forall p :: p in m <==> exists o :: o in orders && periodOf(o.date) == p && |LinesOf(o, kind)| > 0
    ensures forall p :: p in m ==> m[p] == SumLineCosts(Reports.AllLines(Bucket(orders, periodOf, p), kind))
  {
    var keys := set o | o in orders && |LinesOf(o, kind)| > 0 :: periodOf(o.date);
    map p | p in keys :: SumLineCosts(Reports.AllLines(Bucket(orders, periodOf, p), kind))
  }

  lemma {:induction false} NoLinesNoCost(orders: seq<Order>, kind: ItemKind)
    requires forall o :: o in orders ==> |LinesOf(o, kind)| == 0
    ensures SumLineCosts(Reports.AllLines(orders, kind)) == 0
  {
    if |orders| > 0 {
      var front := orders[..|orders| - 1];
      assert forall o :: o in front ==> o in orders;
      NoLinesNoCost(front, kind);
      assert LinesOf(orders[|orders| - 1], kind) == [];
      assert Reports.AllLines(orders, kind) == Reports.AllLines(front, kind);
    }
  }

  /** `.get(period, 0)` on a cost dictionary is the period's cost, whether
      or not the period had any line. */
  lemma CostLookupIsBucketCost(orders: seq<Order>, periodOf: int -> int, kind: ItemKind, p: int)
    ensures (var m := CostByPeriod(orders, periodOf, kind); if p in m then m[p] else 0)
         == Reports.SumOf(Bucket(orders, periodOf, p), OrderCost(kind))
  {
    var b := Bucket(orders, periodOf, p);
    Reports.AllLinesCost(b, kind);
    if p !in CostByPeriod(orders, periodOf, kind) {
      NoLinesNoCost(b, kind);
    }
  }

  datatype TrendPoint = TrendPoint(period: int, revenueCents: int, costCents: int, profitCents: int, cookies: int)

  function Lookup(m: map<int, int>, p: int): int {
    if p in m then m[p] else 0
  }

  /** The chart series of a window: one point per period holding an order,
      ascending (the periods are those of `PeriodsOf`), each with its revenue, cost, profit and cookies baked. */
  function TrendSeries(orders: seq<Order>, periodOf: int -> int, start: int, end: int): (r: seq<TrendPoint>)
    ensures var window := InWindow(orders, start, end);
      && |r| == |PeriodsOf(window, periodOf)|
      && (forall i :: 0 <= i < |r| ==> r[i].period == PeriodsOf(window, periodOf)[i])
      && forall i :: 0 <= i < |r| ==>
           var b := Bucket(window, periodOf, r[i].period);
           && r[i].revenueCents == Reports.SumOf(b, Reports.Sale)
           && r[i].costCents == Reports.SumOf(b, Reports.IngredientCost) + Reports.SumOf(b, Reports.PackagingCost)
           && r[i].profitCents == r[i].revenueCents - r[i].costCents
           && r[i].cookies == Reports.SumOf(b, Reports.Baked)
  {
    var window := InWindow(orders, start, end);
    var periods := PeriodsOf(window, periodOf);
    var ingredients := CostByPeriod(window, periodOf, IngredientKind);
    var packaging := CostByPeriod(window, periodOf, PackagingKind);
    var r := seq(|periods|, i requires 0 <= i < |periods| =>
      var b := Bucket(window, periodOf, periods[i]);
      var cost := Lookup(ingredients, periods[i]) + Lookup(packaging, periods[i]);
      TrendPoint(periods[i], Reports.SumOf(b, Reports.Sale), cost, Reports.SumOf(b, Reports.Sale) - cost,
                 Reports.SumOf(b, Reports.Baked)));
    forall i | 0 <= i < |r|
      ensures r[i].costCents == Reports.SumOf(Bucket(window, periodOf, r[i].period), Reports.IngredientCost)
                              + Reports.SumOf(Bucket(window, periodOf, r[i].period), Reports.PackagingCost)
    {
      CostLookupIsBucketCost(window, periodOf, IngredientKind, periods[i]);
      CostLookupIsBucketCost(window, periodOf, PackagingKind, periods[i]);
    }
    r
  }

  // ---------------------------------------------------------------------
  // Buckets partition the window

  function SumOverPeriods(ps: seq<int>, orders: seq<Order>, periodOf: int -> int, f: Order -> int): int {
    if |ps| == 0 then 0
    else SumOverPeriods(ps[..|ps| - 1], orders, periodOf, f) + Reports.SumOf(Bucket(orders, periodOf, ps[|ps| - 1]), f)
  }

  function Indicator(ps: seq<int>, q: int, v: int): int {
    if |ps| == 0 then 0 else Indicator(ps[..|ps| - 1], q, v) + (if ps[|ps| - 1] == q then v else 0)
  }

  lemma {:induction false} IndicatorOnce(ps: seq<int>, q: int, v: int)
    requires forall i, j :: 0 <= i < j < |ps| ==> ps[i] != ps[j]
    ensures Indicator(ps, q, v) == if q in ps then v else 0
  {
    if |ps| > 0 {
      var front := ps[..|ps| - 1];
      IndicatorOnce(front, q, v);
      assert q in ps <==> q in front || ps[|ps| - 1] == q;
      if ps[|ps| - 1] == q {
        assert q !in front;
      }
    }
  }

  /** Adding one order to the data adds its measure to exactly the period
      entries equal to its period. */
  lemma {:induction false} SumOverPeriodsSnoc(ps: seq<int>, orders: seq<Order>, o: Order, periodOf: int -> int, f: Order -> int)
    ensures SumOverPeriods(ps, orders + [o], periodOf, f)
         == SumOverPeriods(ps, orders, periodOf, f) + Indicator(ps, periodOf(o.date), f(o))
  {
    if |ps| > 0 {
      var p := ps[|ps| - 1];
      SumOverPeriodsSnoc(ps[..|ps| - 1], orders, o, periodOf, f);
      assert (orders + [o])[..|orders + [o]| - 1] == orders;
      var b := Bucket(orders, periodOf, p);
      assert Bucket(orders + [o], periodOf, p) == b + (if periodOf(o.date) == p then [o] else []);
      Reports.SumOfAppend(b, if periodOf(o.date) == p then [o] else [], f);
      assert Reports.SumOf([o], f) == f(o) by {
        assert [o][..0] == [];
      }
    }
  }

  /** Summing a measure over the buckets of distinct periods that cover
      every order gives the measure summed over the orders. */
  lemma {:induction false} BucketsPartition(ps: seq<int>, orders: seq<Order>, periodOf: int -> int, f: Order -> int)
    requires forall i, j :: 0 <= i < j < |ps| ==> ps[i] != ps[j]
    requires forall o :: o in orders ==> periodOf(o.date) in ps
    ensures SumOverPeriods(ps, orders, periodOf, f) == Reports.SumOf(orders, f)
  {
    if |orders| == 0 {
      EmptyBuckets(ps, periodOf, f);
    } else {
      var front := orders[..|orders| - 1];
      var o := orders[|orders| - 1];
      assert orders == front + [o];
      assert forall q :: q in front ==> q in orders;
      BucketsPartition(ps, front, periodOf, f);
      SumOverPeriodsSnoc(ps, front, o, periodOf, f);
      IndicatorOnce(ps, periodOf(o.date), f(o));
    }
  }

  lemma {:induction false} EmptyBuckets(ps: seq<int>, periodOf: int -> int, f: Order -> int)
    ensures SumOverPeriods(ps, [], periodOf, f) == 0
  {
    if |ps| > 0 {
      EmptyBuckets(ps[..|ps| - 1], periodOf, f);
    }
  }

  function SumPoints(r: seq<TrendPoint>, revenue: bool): int {
    if |r| == 0 then 0
    else SumPoints(r[..|r| - 1], revenue) + (if revenue then r[|r| - 1].revenueCents else r[|r| - 1].cookies)
  }

  lemma {:induction false} SumPointsIsSumOverPeriods(r: seq<TrendPoint>, window: seq<Order>, periodOf: int -> int, revenue: bool)
    requires forall i :: 0 <= i < |r| ==>
      r[i].revenueCents == Reports.SumOf(Bucket(window, periodOf, r[i].period), Reports.Sale) &&
      r[i].cookies == Reports.SumOf(Bucket(window, periodOf, r[i].period), Reports.Baked)
    ensures SumPoints(r, revenue) ==
      SumOverPeriods(seq(|r|, i requires 0 <= i < |r| => r[i].period), window, periodOf, if revenue then Reports.Sale else Reports.Baked)
  {
    if |r| > 0 {
      var front := r[..|r| - 1];
      SumPointsIsSumOverPeriods(front, window, periodOf, revenue);
      var ps := seq(|r|, i requires 0 <= i < |r| => r[i].period);
      assert ps[..|ps| - 1] == seq(|front|, i requires 0 <= i < |front| => front[i].period);
    }
  }

  /** The chart loses and double-counts nothing: its revenue points add up
      to the window's revenue and its cookie points to the cookies baked. */
  lemma TrendTotals(orders: seq<Order>, periodOf: int -> int, start: int, end: int)
    ensures var window := InWindow(orders, start, end);
      var r := TrendSeries(orders, periodOf, start, end);
      && SumPoints(r, true) == Reports.SumOf(window, Reports.Sale)
      && SumPoints(r, false) == Reports.SumOf(window, Reports.Baked)
  {
    var window := InWindow(orders, start, end);
    var r := TrendSeries(orders, periodOf, start, end);
    var ps := PeriodsOf(window, periodOf);
    assert ps == seq(|r|, i requires 0 <= i < |r| => r[i].period);
    SumPointsIsSumOverPeriods(r, window, periodOf, true);
    SumPointsIsSumOverPeriods(r, window, periodOf, false);
    BucketsPartition(ps, window, periodOf, Reports.Sale);
    BucketsPartition(ps, window, periodOf, Reports.Baked);
  }
}

=== FILE: uploads.dfy ===
/** `allowed_file`, shared by `views/recipes.py` and `views/inventory.py`:
    an upload is accepted by the extension after its last dot, in any case. */
module Uploads {
  import opened Wrappers
  import Text

  const AllowedExtensions: set<string> := {"png", "jpg", "jpeg", "gif"}

  /** The text after the last '.', if the name has one. */
  function Extension(filename: string): (r: Option<string>)
    ensures r.None? <==> '.' !in filename
    ensures r.Some? ==> '.' !in r.value
    ensures r.Some? ==> exists i :: 0 <= i < |filename| && filename[i] == '.' && r.value == filename[i + 1..]
  {
    match Text.LastIndexOf(filename, '.')
    case None => None
    case Some(i) =>
      var ext := filename[i + 1..];
      assert forall j :: 0 <= j < |ext| ==> ext[j] == filename[i + 1 + j];
      Some(ext)
  }

  function AllowedFile(filename: string): (ok: bool)
    ensures ok ==> '.' in filename
  {
    match Extension(filename)
    case None => false
    case Some(ext) => Text.Lower(ext) in AllowedExtensions
  }

  /** Whatever precedes it, a name ending in a dot and a dot-free extension
      is accepted exactly when the lower-cased extension is whitelisted. */
  lemma AllowedFileOfExtension(base: string, ext: string)
    requires '.' !in ext
    ensures AllowedFile(base + "." + ext) <==> Text.Lower(ext) in AllowedExtensions
  {
    var s := base + "." + ext;
    var i := |base|;
    assert s[i] == '.';
    assert forall j :: i < j < |s| ==> s[j] == ext[j - i - 1];
    match Text.LastIndexOf(s, '.')
    case Some(k) =>
      assert k == i;
      assert s[i + 1..] == ext;
  }

  /** A name without a dot is always refused. */
  lemma NoDotRefused(filename: string)
    requires '.' !in filename
    ensures !AllowedFile(filename)
  {
  }

  lemma LowerIdempotent(s: string)
    ensures Text.Lower(Text.Lower(s)) == Text.Lower(s)
  {
  }

  lemma LowerSuffix(s: string, k: nat)
    requires k <= |s|
    ensures Text.Lower(s)[k..] == Text.Lower(s[k..])
  {
  }

  lemma LastIndexOfIsLast(s: string, c: char, k: nat)
    requires k < |s| && s[k] == c
    requires forall j :: k < j < |s| ==> s[j] != c
    ensures Text.LastIndexOf(s, c) == Some(k)
  {
    var k' := Text.LastIndexOf(s, c).value;
    assert k' >= k;
  }

  lemma LastDotOfLower(s: string)
    ensures Text.LastIndexOf(Text.Lower(s), '.') == Text.LastIndexOf(s, '.')
  {
    var low := Text.Lower(s);
    match Text.LastIndexOf(s, '.')
    case None =>
      assert forall i :: 0 <= i < |low| ==> low[i] == Text.LowerChar(s[i]) != '.';
    case Some(k) =>
      assert forall j :: k < j < |low| ==> low[j] == Text.LowerChar(s[j]) != '.';
      LastIndexOfIsLast(low, '.', k);
  }

  /** Lower-casing a name does not change whether it is accepted. */
  lemma AllowedFileIgnoresCase(filename: string)
    ensures AllowedFile(Text.Lower(filename)) == AllowedFile(filename)
  {
    LastDotOfLower(filename);
    match Text.LastIndexOf(filename, '.')
    case None =>
    case Some(k) =>
      LowerSuffix(filename, k + 1);
      LowerIdempotent(filename[k + 1..]);
  }

  lemma AcceptsUpperCase()
    ensures AllowedFile("cookie.PNG")
  {
    AllowedFileOfExtension("cookie", "PNG");
    assert Text.Lower("PNG") == "png";
  }

  lemma RefusesInnerExtension()
    ensures !AllowedFile("photo.jpg.exe")
  {
    assert "photo.jpg.exe" == "photo.jpg" + "." + "exe";
    AllowedFileOfExtension("photo.jpg", "exe");
    assert Text.Lower("exe") == "exe";
  }
}

=== FILE: wrappers.dfy ===
/** Failure-compatible wrappers used across the model: `Option` for the
    source's `None`-able columns and lookups, `Result` for request handlers
    that either commit or abort. */
module Wrappers {

  datatype Option<+T> = None | Some(value: T) {

    /** The wrapped value, or `default` when there is none. */
    function GetOr(default: T): T {
      match this
      case Some(v) => v
      case None => default
    }
  }

  datatype Result<+T, +E> = Ok(value: T) | Err(error: E)
}
